=== FILE: README.md ===
# zkLogin authentication provider, modelled in Dafny

This project models the login/session core of a zkLogin web client: the React
provider in `context/AuthContext.tsx`. A user starts `login`. The provider
creates an ephemeral Ed25519 key pair. It asks the ledger for the current
epoch and binds key, epoch and fresh randomness into a nonce. Then it
redirects to Google's implicit OAuth flow. On the way back, `handleJwt`
turns the identity token and a per-subject salt into an address and stores
the session. `getZkProof` asks the prover for a zero-knowledge proof.
`sendTransaction` signs a transfer with the ephemeral key, composes the
zkLogin signature and submits it. `logout` clears the session. Two effects
restore the key pair and the session after a reload.

The model is functional:

- The provider's React state is an immutable `AuthState` record.
- `sessionStorage` is a `map<string, string>`.
- Each handler is a pure function. It returns the new state, the new storage,
  the external calls it made (`Call`), and whether it finished (`Done`) or
  threw (`Threw`). On a throw the state and storage are still returned,
  because writes made before a JavaScript throw persist.
- `getZkProof` and `sendTransaction` change neither, so they return only calls
  and an outcome (`Run`).
- Replies from the outside (the epoch, the prover's response, the signed
  transaction, the ledger's answer) and freshly generated values (key pair,
  randomness, salt) are parameters.
- Foreign library code is a record of uninterpreted functions (`Library`).
  This covers key import/export, `generateNonce`, `jwtDecode`,
  `jwtToAddress`, `genAddressSeed`, `getZkLoginSignature`,
  `getExtendedEphemeralPublicKey`, `JSON.stringify` and `JSON.parse`.
  Properties that need a library function to behave (JSON and key export
  round trips) take that as an explicit hypothesis (`JsonRoundTrips`,
  `KeyExportRoundTrips`, `ExportIsNonEmpty`).
- The deployment constants are a `Config`: the key-pair storage key, the
  Google client id and the page origin. The key-pair key is defined in a
  constants file that is not part of this model. Lemmas that need it to
  differ from the flow's fixed keys say so (`SeparateKeys`).

JavaScript's coercions are written out explicitly:

- Parsed JSON values are `JsValue`.
- Truthiness tests are `Truthy`; a `maxEpoch` of 0 counts as missing.
- `Number()` and `BigInt()` are partial parses returning `Option<int>`; NaN
  is `None`. `BigInt()` of the `amount` number is `NumberToBigInt`.
- `n.toString()` is `Numbers.IntText`.
- `${v}` is `TemplateText`.
- `URLSearchParams.get` is `Urls.SearchParam`.

Modules and files:

- `wrappers.dfy`: `Option`.
- `numbers.dfy`: decimal text.
- `urls.dfy`: query strings.
- `js.dfy`: JavaScript values and coercions.
- `foreign.dfy`: the library and configuration.
- `auth.dfy`: the provider's handlers.
- `flows.dfy`: properties spanning several handlers.

Two behaviours of the code are worth knowing:

- The pending login record is removed only at the end of a successful
  `handleJwt`. A failed callback leaves it in place, so the callback can be
  retried.
- `sendTransaction` returns silently (`Done(None)`) when signing material
  is missing. It does not throw.

## Model

| member | source | states |
|---|---|---|
| `AuthContext.RestoreKeyPair` | context/AuthContext.tsx:73-90 | The mount effect changes only the key pair. A present secret that imports is installed as imported, and a key pair comes from nowhere else. The stored secret is removed exactly when it is present but cannot be imported. No other storage entry changes. |
| `AuthContext.Login` | context/AuthContext.tsx:92-142 | Login finishes iff the epoch is truthy and not NaN. The in-memory key pair is replaced in every case, and so is the key-pair slot when it is not the pending slot. On failure, the only call is the epoch request, no other slot changes, and no redirect happens. On success: the state holds the accepted epoch, the randomness and the nonce bound to (public key, epoch, randomness); the pending slot holds that record; the single redirect goes to the provider URL carrying that nonce. |
| `AuthContext.ReadPending` | context/AuthContext.tsx:146-164 | An absent or empty pending slot gives `MissingPendingLogin`. A record that does not parse, or that is `null`, gives `MalformedPendingLogin`. An undefined or null `maxEpoch` gives `MissingMaxEpoch`. Otherwise the result holds the parsed record's `maxEpoch`, `randomness` and `nonce` properties. |
| `AuthContext.ResolveSalt` | context/AuthContext.tsx:168-172 | Salt get-or-create: a truthy cached salt is reused with the storage untouched. Otherwise the generated salt is used. Either way the subject's slot ends up holding the salt used, and no other slot changes. |
| `AuthContext.AcceptedEpoch` | context/AuthContext.tsx:102-110 | A failed epoch request gives no epoch. An accepted epoch is truthy and is `Number()` of the reply. A numeric reply is accepted exactly when it is non-zero, so epoch 0 can only come from text such as "0". |
| `AuthContext.SessionRecord` | context/AuthContext.tsx:196-203 | The session record has exactly the six fields `maxEpoch`, `nonce`, `jwt`, `salt`, `userAddress` and `randomness`, and no key pair. Its `maxEpoch` reads back as the state's epoch. Every other field is the state's. |
| `AuthContext.HandleJwt` | context/AuthContext.tsx:144-210 | The callback succeeds exactly when all of these hold: the pending record reads, the token decodes, an address is derived from the token and the resolved salt, `Number()` of the pending `maxEpoch` is not NaN, and a stored key pair (read after the salt write) imports. A missing, unparsable or epoch-less pending record throws with state and storage untouched. An undecodable token does the same. A throw after the token decoded leaves storage exactly as the salt step left it: the stored salt, or the new salt written. So the pending record stays. The key-pair import failure is the only throw that changes the in-memory state, and it is thrown exactly when the token, address and epoch steps succeeded and a stored key-pair secret does not import. That state is already authenticated with the token, the resolved salt, the derived address, the parsed epoch and the pending nonce and randomness, and keeps its old key pair. On success the state is authenticated with the same fields. Its key pair is the imported one when a secret is stored, and the previous one otherwise. The session slot mirrors that state, the salt slot holds the salt, and the pending record is gone. |
| `AuthContext.Logout` | context/AuthContext.tsx:211-222 | Logout leaves the state signed out: `userAddress` is `""`, and `maxEpoch`, nonce, jwt, salt and randomness are null. The in-memory key pair is kept. Exactly the session slot and the demo key-pair slot are removed. |
| `AuthContext.FragmentToken` | context/AuthContext.tsx:326-328 | An empty fragment carries no token. A token read from the fragment never contains '&'. |
| `AuthContext.RestoreSession` | context/AuthContext.tsx:298-332 | The restore effect never writes storage. Without a session the state is unchanged. It throws (`MalformedSession`, state unchanged, no call) exactly when a stored session does not parse or is `null`. Otherwise a stored session leaves the state authenticated with the record's `nonce`, `jwt`, `salt`, `userAddress` and `randomness`. Its `maxEpoch` is `Number()` of the stored one unless that is NaN, in which case the old epoch stays. When the state it ran with was not authenticated and the fragment carries a non-empty `id_token`, that token is handed to `handleJwt`. Otherwise nothing is handed off. |
| `AuthContext.ProofRequest` | context/AuthContext.tsx:229-241 | A proof request exists exactly when the extended public key of the state's ephemeral key pair can be computed. It carries `keyClaimName` "sub", the state's jwt, salt and randomness, and that extended key. Its `maxEpoch` text reads back as the state's epoch under `Number()`. |
| `AuthContext.GetZkProof` | context/AuthContext.tsx:224-244 | Missing material (jwt, key pair, non-zero epoch, randomness, salt) throws before any call. A key pair whose extended public key cannot be computed throws `KeyEncodingFailed`, also before any call. Otherwise exactly one proof request is posted. The result is the prover's proof exactly when the response is ok. Any other outcome is `ProofServiceFailure`, as `fetchZkProof` throws (lines 57-71). |
| `AuthContext.AddressSeed` | context/AuthContext.tsx:271-277 | The address seed exists exactly when the stored jwt is text that decodes, the salt reads under `BigInt()`, and `genAddressSeed` succeeds on them with "sub", the subject and the audience. Each failure throws one of `MalformedToken`, `MalformedSalt` or `AddressSeedFailed`. |
| `AuthContext.Submit` | context/AuthContext.tsx:258-293 | After the proof: an `amount` with a fractional part makes `BigInt(amount)` throw `InvalidAmount` with no call. Otherwise the first call signs the transfer of `amount` coins in base units, from `userAddress`, with the ephemeral key. A signing failure, a failed address seed (re-decoding the token, `BigInt(salt)`, `genAddressSeed`) or a throwing `getZkLoginSignature` ends the run with that error after the signing call alone. The ledger is called exactly when every step up to the signature succeeded. Then the calls are exactly the signing call and a submission of the signed bytes with the composed zkLogin signature. The result is the ledger's answer, unchanged, exactly when that submission happened and was accepted. |
| `AuthContext.SendTransaction` | context/AuthContext.tsx:246-294 | Silent return with no calls exactly when jwt, salt, key pair or a non-zero epoch is missing. Otherwise a throw from `getZkProof` ends the run with that proof step's calls and error: missing randomness before any call, and `KeyEncodingFailed` before any call. With an ok proof, a fractional `amount` throws `InvalidAmount` after the one proof request and before signing. At most one ledger submission is made. When it is made, the calls are exactly the proof request, the signing of the transfer, and the submission of the signed bytes with the zkLogin signature composed from the prover's proof. A returned result is the ledger's answer, unchanged. |
| `AuthContext.SaltKeyShape` | context/AuthContext.tsx:168-171 | A salt slot `user-salt-<sub>` is never the pending, session or demo key-pair slot. |
| `Flows.GoogleUrlParameters` | context/AuthContext.tsx:124 | Read back with `URLSearchParams`, the Google URL yields `nonce`, `response_type=id_token`, `redirect_uri`, `scope=openid` and `client_id` as written (for values without '&' or '#'). |
| `Flows.LoginEpochFailure` | context/AuthContext.tsx:94-110 | A missing or NaN epoch fails login. The pending slot is untouched and nothing navigates. The key-pair slot and in-memory key pair are already replaced, while epoch, nonce and randomness keep their old values. |
| `Flows.LoginRedirectCarriesNonce` | context/AuthContext.tsx:112-137 | After a successful Google login, the redirect URL's `nonce` parameter equals the state's new nonce `generateNonce(pk, epoch, randomness)`. Its `response_type` is `id_token` and its `redirect_uri` is the callback. |
| `Flows.LoginRecordReadsBack` | context/AuthContext.tsx:128-135 | The pending record written by a successful login reads back in `handleJwt` as the accepted epoch, the fresh randomness and the nonce. |
| `Flows.SecondLoginReplacesPending` | context/AuthContext.tsx:135 | A second login overwrites the single pending slot and the key-pair slot with the newer attempt. |
| `Flows.LoginThenCallback` | context/AuthContext.tsx:92-205 | Login followed by a callback whose token decodes and yields an address (from the salt the callback resolves) authenticates the user. The result has login's epoch, nonce, randomness and key pair, and the pending record is consumed. |
| `Flows.RestoreFromRecord` | context/AuthContext.tsx:298-322 | A session record written from an authenticated state restores exactly that state, whatever state the provider started in. The provider keeps its own key pair. |
| `Flows.CallbackThenReload` | context/AuthContext.tsx:196-203 | After a successful callback, a reload's session-restore effect rebuilds every field the callback set, except the key pair. |
| `Flows.ReloadRestoresSession` | context/AuthContext.tsx:73-90 | If the callback left a key pair secret in storage, then on a fresh provider the mount effect followed by the session restore reproduces the callback's state exactly, key pair included. |
| `Flows.SaltIsStable` | context/AuthContext.tsx:168-175 | Two callbacks for the same subject, the second seeing the stored salt, use the same salt. For the same token they derive the same address. |
| `Flows.SameAddressAfterRelogin` | context/AuthContext.tsx:168-175 | Callback, logout, new login, callback with the same token: same salt, same address. |
| `Flows.LoginKeepsSaltCache` | context/AuthContext.tsx:96-135 | Login never touches a salt slot. |
| `Flows.FailedCallbackKeepsPending` | context/AuthContext.tsx:205 | A failed callback leaves the pending record readable as before, so a replay sees the same pending login. The session slot is untouched. |
| `Flows.SaltOutlivesInvalidMaxEpoch` | context/AuthContext.tsx:168-179 | A NaN pending `maxEpoch` throws after a new salt was stored. No session appears and the in-memory state is unchanged. |
| `Flows.InvalidMaxEpochKeepsState` | context/AuthContext.tsx:177-188 | Whether or not a salt is cached, a NaN pending `maxEpoch` throws with the in-memory state unchanged and no session record written. |
| `Flows.PendingEpochExamples` | context/AuthContext.tsx:160-164 | Missing or null `maxEpoch` gives `MissingMaxEpoch`. A null record gives `MalformedPendingLogin`. `Number("abc")` is NaN, and `Number("")` is 0, so an empty pending `maxEpoch` passes as epoch 0. |
| `Flows.LogoutKeepsLoginMaterial` | context/AuthContext.tsx:211-221 | Logout keeps the pending slot, every salt slot, the key-pair slot (when it is not the demo slot) and the in-memory key pair. |
| `Flows.LogoutDropsDemoKeyPairSlot` | context/AuthContext.tsx:220 | If the configured key-pair slot is `demo_ephemeral_key_pair`, logout removes the stored key pair. |
| `Flows.LogoutIdempotent` | context/AuthContext.tsx:211-221 | Logging out twice equals logging out once. |
| `Flows.NothingSentAfterLogout` | context/AuthContext.tsx:224-256 | After logout, `sendTransaction` returns silently and `getZkProof` throws, neither making a call. |
| `Flows.ReloadAfterLogout` | context/AuthContext.tsx:298-322 | A reload after logout restores nothing. |
| `Flows.FragmentTokenFound` | context/AuthContext.tsx:326-328 | The `id_token` of a `#id_token=<t>[&...]` fragment is `t`. |
| `Flows.FragmentHandsOffToken` | context/AuthContext.tsx:326-330 | A provider rendered as signed out hands the token of `#id_token=<t>` to `handleJwt`, as its one call. This happens even when a stored session is restored in the same run, because the guard reads the state the effect was rendered with. |
| `Flows.CallbackProofRequest` | context/AuthContext.tsx:190-241 | After a callback, any proof request carries the token, the resolved salt and the pending randomness. Its `maxEpoch` text reads back as the pending epoch. When a key pair secret was stored, that secret imports, a request exists exactly when the extended public key of the imported key pair can be computed, and the request is bound to that key. |
| `Flows.CallbackExtendedKey` | context/AuthContext.tsx:190-193 | After a successful callback with a key-pair secret stored outside the salt slot, the state's key pair is the one imported from that secret. |
| `Flows.RequestCarriesState` | context/AuthContext.tsx:234-241 | A proof request copies the state's jwt, salt and randomness, claims "sub", and writes an epoch text that reads back as the state's epoch. |
| `Flows.ProverFailureBlocksLedger` | context/AuthContext.tsx:66-68 | A failed or non-ok prover response ends `sendTransaction` after the one proof request, with `ProofServiceFailure` and no signing or ledger call. |
| `Flows.SubmitSucceeds` | context/AuthContext.tsx:258-293 | With a whole amount and every step succeeding, exactly two calls happen. The first signs `Transfer(userAddress, recipient, MIST_PER_SUI * amount)` with the ephemeral key. The second submits with `getZkLoginSignature(proof, genAddressSeed(BigInt(salt), "sub", sub, aud), maxEpoch, userSignature)`. The ledger's result is returned. |
| `Flows.SendSucceeds` | context/AuthContext.tsx:257 | With proof material in place and an ok prover, `sendTransaction` is the single proof request followed by `Submit` with the prover's proof. |
| `Flows.FractionalAmountThrows` | context/AuthContext.tsx:257-259 | Sending half a coin after an ok proof makes exactly the proof request, then throws `InvalidAmount` before signing. |
| `Flows.ZeroEpochCountsAsMissing` | context/AuthContext.tsx:225 | With `maxEpoch` 0, `sendTransaction` returns silently and `getZkProof` throws, both without calls. |
| `Flows.ZeroEpochReplies` | context/AuthContext.tsx:103-110 | Login accepts the epoch text "0" as epoch 0. It refuses the number 0 and the empty text. |
| `Flows.MissingRandomnessThrows` | context/AuthContext.tsx:225-227 | Randomness is checked only by `getZkProof`. With it missing, `sendTransaction` throws `MissingAuthData` before any call. |
| `Numbers.IntTextRoundTrip` | context/AuthContext.tsx:237 | `Number()` of the text `maxEpoch.toString()` gives back `maxEpoch`. |
| `Numbers.NatTextValue` | context/AuthContext.tsx:237 | The digits written for a natural number have that number as their value. |
| `Numbers.NatTextShape` | context/AuthContext.tsx:237 | The decimal text of a natural number has no leading zero, and is a single digit exactly when the number is below 10. |
| `Numbers.TrimStart` | context/AuthContext.tsx:107 | Leading-blank trimming (inside `Number()`) drops only blanks, from the front, and stops at a non-blank. |
| `Js.NumberOfIntText` | context/AuthContext.tsx:237 | `Number()` and `BigInt()` of an integer's text give back the integer. |
| `Js.DefinedPreservesProperties` | context/AuthContext.tsx:196-203 | Dropping undefined fields, as `JSON.stringify` does, changes no field a destructuring reads. |
| `Js.ToNumber` | context/AuthContext.tsx:107-108 | `Number()` of `undefined` or an object is NaN. Every other falsy value reads as 0. A number reads as itself. |
| `Js.ToBigInt` | context/AuthContext.tsx:273 | `BigInt()` agrees with `Number()` except on `null`, which it refuses. |
| `Js.NumberToBigInt` | context/AuthContext.tsx:259 | `BigInt()` of a number succeeds exactly when the number is whole, and then denotes the same value. |
| `Js.Property` | context/AuthContext.tsx:301-308 | Destructuring throws exactly on `null` and `undefined`. A field present in an object reads as its value. Every other read is `undefined`. |
| `Urls.Lookup` | context/AuthContext.tsx:327-328 | A found value is what follows the first '=' in the first non-empty pair named `name`. Nothing is found exactly when no non-empty pair has that name. |
| `Urls.SplitJoin` | context/AuthContext.tsx:124 | Splitting a '&'-joined query gives back its pairs when no pair contains '&'. |
| `Urls.JoinSplit` | context/AuthContext.tsx:327 | Joining the pieces of a split gives back the text. |
| `Urls.LookupPairs` | context/AuthContext.tsx:124 | In a query with distinct names free of '=', each name reads back its own value. |
| `Urls.CutUnique` | context/AuthContext.tsx:327-328 | Cutting at the first separator is the only split whose front lacks it. |

## Left out

- React scheduling: effect re-runs, `useState` batching, and the un-awaited `handleJwt` call. Each handler is one atomic transition. The restore effect records the hand-off as a `HandleToken` call instead of running `handleJwt`.
- Balance polling (`useSuiClientQuery`), `router.push` in `logout`, and `handledemo`: presentation or discarded results.
- The prover proxy route, the UI pages and the salt generator utility: HTTP plumbing, display and floating-point logic, and code the flow never calls.
- Crypto and library internals: key generation, base64, nonce and randomness generation, `jwtToAddress`, `genAddressSeed`, `getExtendedEphemeralPublicKey`, `getZkLoginSignature`, `jwtDecode` and JSON. They are uninterpreted. Those that can fail in the flow (`jwtDecode`, `JSON.parse`, key import, `jwtToAddress`, `genAddressSeed`, `getExtendedEphemeralPublicKey`, `getZkLoginSignature`) return `None` for a throw. Key generation, `exportSecret`, `getPublicKey`, `generateNonce`, `generateRandomness` and `JSON.stringify` are assumed never to throw.
- The JSON form of the key-pair instance inside the pending record: it is the opaque `Composite(keyPairJson(kp))`.
- `Numbers.TrimStart`: `Number()`/`BigInt()` are modelled for decimal integer text with ASCII blanks only. Hex, exponent and fractional syntax, `Infinity` and other Unicode white space read as NaN here.
- `Numbers.IntTextRoundTrip`: `toString()` switches to exponent notation from 1e21; not modelled.
- `Js.NumberOfIntText`: JavaScript numbers read from storage or the network are modelled as integers. Fractional epochs are not represented.
- `AuthContext.SendTransaction`: the amount is a `real`, so NaN and ±Infinity amounts (where `BigInt(amount)` also throws) are not represented. Amounts are not rounded to 64-bit floating point.
- `Js.ToNumber`: every object or array reads as NaN. JavaScript gives 0 for `[]`, and for a one-element array the number its element reads as, so a stored `maxEpoch` that is such an array would be read differently. The model's login never writes one.
- `TemplateText` writes every object or array as `[object Object]`; arrays would render as their joined elements.
- `URLSearchParams` percent-decoding and '+' as space are not modelled.
- A `fetch` transport failure and a non-ok status both become `ProofServiceFailure`. A failing `response.json()` is not modelled.
- Errors thrown while building the transaction (gas selection over the network) and while signing are one `SigningFailed`, given as the `signed` reply `None`.
- Concurrency with logout during an in-flight proof or submission: the handlers are atomic here.

=== FILE: auth.dfy ===
/** The authentication provider (`context/AuthContext.tsx`) as a state
    machine. The provider's React state is an immutable `AuthState`, the
    browser's `sessionStorage` a map from keys to strings, and each handler a
    pure transition returning the new state, the new storage, the external
    calls it made and whether it finished or threw. Writes done before a
    throw are kept, as they are in the browser. */
module AuthContext {
  import opened Wrappers
  import opened Js
  import opened Foreign
  import Numbers
  import Urls

  type Storage = map<string, string>

  const PreloginKey: string := "zklogin-prelogin"
  const SessionKey: string := "zklogin-session"
  const SaltPrefix: string := "user-salt-"
  const DemoKeyPairKey: string := "demo_ephemeral_key_pair"
  const CallbackPath: string := "/auth/callback"
  const GoogleEndpoint: string := "https://accounts.google.com/o/oauth2/v2/auth"
  /** `MIST_PER_SUI`: base units of the ledger per user-facing coin. */
  const MistPerSui: int := 1_000_000_000

  datatype Provider = Google | Facebook | Twitch

  /** The provider's React state. `userAddress`, `nonce`, `jwt`, `salt` and
      `randomness` hold whatever JSON value was restored into them; `None`
      for `maxEpoch` is `null`. */
  datatype AuthState = AuthState(
    isAuthenticated: bool,
    userAddress: JsValue,
    ephemeralKeyPair: Option<KeyPair>,
    maxEpoch: Option<int>,
    nonce: JsValue,
    jwt: JsValue,
    salt: JsValue,
    randomness: JsValue)

  /** The state of a freshly mounted provider. */
  const Initial: AuthState := AuthState(false, Str(""), None, None, Null, Null, Null, Null)

  /** One kind per `throw` of the provider (or foreign call that throws through it). */
  datatype AuthError =
    | EpochUnavailable
    | InvalidEpoch
    | MissingPendingLogin
    | MalformedPendingLogin
    | MissingMaxEpoch
    | MalformedToken
    | AddressDerivationFailed
    | InvalidMaxEpoch
    | KeyPairUnreadable
    | MalformedSession
    | MissingAuthData
    | ProofServiceFailure
    | SigningFailed
    | MalformedSalt
    | AddressSeedFailed
    | LedgerSubmissionFailure
    | KeyEncodingFailed
    | InvalidAmount
    | SignatureAssemblyFailed

  datatype Outcome<+T> = Done(value: T) | Threw(error: AuthError)

  /** The body posted to the proof endpoint. */
  datatype ZkRequest = ZkRequest(
    jwt: JsValue,
    extendedEphemeralPublicKey: string,
    maxEpoch: string,
    jwtRandomness: JsValue,
    salt: JsValue,
    keyClaimName: string)

  /** The one transaction the provider builds: split `mist` off the gas coin
      and transfer it to `recipient`, sent by `sender`. */
  datatype Transfer = Transfer(sender: JsValue, recipient: string, mist: int)

  /** Calls that leave the process. */
  datatype Call =
    | FetchEpoch                                       // getLatestSuiSystemState()
    | Navigate(url: string)                            // window.location.href = url
    | PostProof(request: ZkRequest)                    // fetch('/api/zkp', ...)
    | SignTransaction(transfer: Transfer, signer: KeyPair)   // txb.sign({client, signer})
    | Execute(bytes: string, signature: string)        // executeTransactionBlock(...)
    | HandleToken(token: string)                       // handleJwt(idToken), not awaited

  /** A transition that may change the state and the storage. */
  datatype Step<+T> = Step(auth: AuthState, store: Storage, calls: seq<Call>, outcome: Outcome<T>)

  /** An operation that changes neither: only calls and an outcome. */
  datatype Run<+T> = Run(calls: seq<Call>, outcome: Outcome<T>)

  /** What the ledger answered to the epoch request. */
  datatype EpochReply = RpcFailed | Answered(epoch: JsValue)

  /** What the proof endpoint answered: no response at all, or a status and a body. */
  datatype ProverReply = TransportFailed | Response(ok: bool, proof: ZkProof)

  /** Transaction bytes and the ephemeral key's signature over them. */
  datatype SignedTx = SignedTx(bytes: string, signature: string)

  /** The ledger's answer to an executed transaction, passed back as is. */
  datatype ExecResult = ExecResult(digest: string)

  // ---------------------------------------------------------------------
  // Storage

  /** `sessionStorage.getItem(key)` is truthy: present and not "". */
  predicate Present(store: Storage, key: string) {
    key in store && store[key] != ""
  }

  /** The two storages hold the same entries outside `keys`. */
  ghost predicate AgreeOutside(before: Storage, after: Storage, keys: set<string>) {
    forall k :: k !in keys ==> (k in before <==> k in after) && (k in before ==> before[k] == after[k])
  }

  /** The slot caching the salt of subject `sub`. */
  function SaltKey(sub: JsValue): string {
    SaltPrefix + TemplateText(sub)
  }

  predicate IsSaltKey(key: string) {
    |SaltPrefix| <= |key| && key[..|SaltPrefix|] == SaltPrefix
  }

  /** The configured key-pair slot is none of the flow's fixed slots. */
  predicate SeparateKeys(cfg: Config) {
    cfg.keyPairKey != PreloginKey && cfg.keyPairKey != SessionKey && !IsSaltKey(cfg.keyPairKey)
  }

  lemma SaltKeyShape(sub: JsValue)
    ensures IsSaltKey(SaltKey(sub))
    ensures SaltKey(sub) != PreloginKey && SaltKey(sub) != SessionKey && SaltKey(sub) != DemoKeyPairKey
  {
    assert SaltKey(sub)[..|SaltPrefix|] == SaltPrefix;
    assert SaltKey(sub)[0] == 'u';
  }

  // ---------------------------------------------------------------------
  // Mount effect: bring back the ephemeral key pair

  /** The mount effect: import the stored secret key; an unreadable one is removed. */
  function RestoreKeyPair(env: Env, auth: AuthState, store: Storage): (r: Step<()>)
    ensures r.calls == [] && r.outcome == Done(())
    ensures r.auth == auth.(ephemeralKeyPair := r.auth.ephemeralKeyPair)
    ensures r.auth != auth ==>
      Present(store, env.cfg.keyPairKey) && r.auth.ephemeralKeyPair == env.lib.importSecret(store[env.cfg.keyPairKey])
    ensures Present(store, env.cfg.keyPairKey) && env.lib.importSecret(store[env.cfg.keyPairKey]).Some? ==>
      r.auth.ephemeralKeyPair == env.lib.importSecret(store[env.cfg.keyPairKey])
    ensures AgreeOutside(store, r.store, {env.cfg.keyPairKey})
    ensures env.cfg.keyPairKey in r.store ==> r.store == store
    ensures r.store != store <==>
      Present(store, env.cfg.keyPairKey) && env.lib.importSecret(store[env.cfg.keyPairKey]).None?
  {
    var key := env.cfg.keyPairKey;
    if Present(store, key) then
      match env.lib.importSecret(store[key])
      case Some(kp) => Step(auth.(ephemeralKeyPair := Some(kp)), store, [], Done(()))
      case None => Step(auth, store - {key}, [], Done(()))
    else Step(auth, store, [], Done(()))
  }

  // ---------------------------------------------------------------------
  // login

  /** The epoch `login` goes on with: the reply's epoch if it is truthy and
      `Number()` of it is not NaN. */
  function AcceptedEpoch(reply: EpochReply): (r: Option<int>)
    ensures reply.RpcFailed? ==> r.None?
    ensures r.Some? ==> reply.Answered? && Truthy(reply.epoch) && ToNumber(reply.epoch) == r
    ensures reply.Answered? && reply.epoch.Num? ==> (r.Some? <==> reply.epoch.n != 0)
    ensures r == Some(0) ==> reply.epoch.Str?
  {
    if reply.Answered? && Truthy(reply.epoch) then ToNumber(reply.epoch) else None
  }

  /** The object `login` serialises under the prelogin key. */
  function PendingRecord(lib: Library, maxEpoch: int, randomness: string, nonce: string, kp: KeyPair): map<string, JsValue> {
    map["maxEpoch" := Num(maxEpoch), "randomness" := Str(randomness), "nonce" := Str(nonce),
        "ephemeralKeyPair" := Composite(lib.keyPairJson(kp))]
  }

  /** The names of the Google authorisation URL's query parameters, in order. */
  const GoogleParamNames: seq<string> := ["client_id", "response_type", "redirect_uri", "scope", "nonce"]

  /** The values of those parameters. */
  function GoogleParamValues(clientId: string, redirectUrl: string, nonce: string): seq<string> {
    [clientId, "id_token", redirectUrl, "openid", nonce]
  }

  /** The `name=value` pairs of the Google authorisation URL. */
  function GoogleAuthParams(clientId: string, redirectUrl: string, nonce: string): seq<string> {
    Urls.Pairs(GoogleParamNames, GoogleParamValues(clientId, redirectUrl, nonce))
  }

  /** The Google authorisation URL of the implicit flow: the endpoint, '?',
      and the parameters joined by '&' (the same text as the template). */
  function GoogleAuthUrl(clientId: string, redirectUrl: string, nonce: string): string {
    GoogleEndpoint + "?" + Urls.Join(GoogleAuthParams(clientId, redirectUrl, nonce), '&')
  }

  /** Only Google is wired; any other provider leaves the URL empty. */
  function AuthUrl(cfg: Config, provider: Provider, nonce: string): string {
    match provider
    case Google => GoogleAuthUrl(cfg.googleClientId, cfg.origin + CallbackPath, nonce)
    case _ => ""
  }

  /** `login(provider)`, given the freshly generated key pair `kp`, the
      ledger's epoch reply and the fresh randomness. */
  function Login(env: Env, auth: AuthState, store: Storage, provider: Provider,
                 kp: KeyPair, reply: EpochReply, randomness: string): (r: Step<()>)
    ensures r.outcome.Done? <==> AcceptedEpoch(reply).Some?
    ensures r.auth.ephemeralKeyPair == Some(kp)
    ensures env.cfg.keyPairKey != PreloginKey ==>
      env.cfg.keyPairKey in r.store && r.store[env.cfg.keyPairKey] == env.lib.exportSecret(kp)
    ensures r.outcome.Threw? ==>
      && r.calls == [FetchEpoch]
      && r.auth == auth.(ephemeralKeyPair := Some(kp))
      && AgreeOutside(store, r.store, {env.cfg.keyPairKey})
    ensures r.outcome.Done? ==>
      var n := AcceptedEpoch(reply).value;
      var nonce := env.lib.generateNonce(env.lib.publicKey(kp), n, randomness);
      && r.calls == [FetchEpoch, Navigate(AuthUrl(env.cfg, provider, nonce))]
      && r.auth == auth.(ephemeralKeyPair := Some(kp), maxEpoch := Some(n),
                         randomness := Str(randomness), nonce := Str(nonce))
      && AgreeOutside(store, r.store, {env.cfg.keyPairKey, PreloginKey})
      && PreloginKey in r.store
      && r.store[PreloginKey] == env.lib.stringify(PendingRecord(env.lib, n, randomness, nonce, kp))
  {
    var lib := env.lib;
    var store1 := store[env.cfg.keyPairKey := lib.exportSecret(kp)];
    var auth1 := auth.(ephemeralKeyPair := Some(kp));
    match reply
    case RpcFailed => Step(auth1, store1, [FetchEpoch], Threw(EpochUnavailable))
    case Answered(epoch) =>
      if !Truthy(epoch) then Step(auth1, store1, [FetchEpoch], Threw(EpochUnavailable))
      else
        match ToNumber(epoch)
        case None => Step(auth1, store1, [FetchEpoch], Threw(InvalidEpoch))
        case Some(n) =>
          var nonce := lib.generateNonce(lib.publicKey(kp), n, randomness);
          var auth2 := auth1.(maxEpoch := Some(n), randomness := Str(randomness), nonce := Str(nonce));
          var store2 := store1[PreloginKey := lib.stringify(PendingRecord(lib, n, randomness, nonce, kp))];
          Step(auth2, store2, [FetchEpoch, Navigate(AuthUrl(env.cfg, provider, nonce))], Done(()))
  }

  // ---------------------------------------------------------------------
  // handleJwt

  /** The fields `handleJwt` destructures from the pending record. */
  datatype Pending = Pending(maxEpoch: JsValue, randomness: JsValue, nonce: JsValue)

  /** Find, parse and destructure the pending record, and insist on a
      `maxEpoch` that is neither `undefined` nor `null`. */
  function ReadPending(lib: Library, store: Storage): (r: Outcome<Pending>)
    ensures !Present(store, PreloginKey) <==> r == Threw(MissingPendingLogin)
    ensures r.Done? ==> r.value.maxEpoch != Undefined && r.value.maxEpoch != Null
    ensures r.Done? ==>
      && Present(store, PreloginKey) && lib.parse(store[PreloginKey]).Some?
      && var p := lib.parse(store[PreloginKey]).value;
      && Property(p, "maxEpoch") == Some(r.value.maxEpoch)
      && Property(p, "randomness") == Some(r.value.randomness)
      && Property(p, "nonce") == Some(r.value.nonce)
    ensures Present(store, PreloginKey) && lib.parse(store[PreloginKey]).None? ==>
      r == Threw(MalformedPendingLogin)
    ensures Present(store, PreloginKey) && lib.parse(store[PreloginKey]).Some? ==>
      var p := lib.parse(store[PreloginKey]).value;
      && (Property(p, "maxEpoch").None? ==> r == Threw(MalformedPendingLogin))
      && (Property(p, "maxEpoch") in {Some(Undefined), Some(Null)} ==> r == Threw(MissingMaxEpoch))
    ensures r.Done? <==>
      && Present(store, PreloginKey)
      && lib.parse(store[PreloginKey]).Some?
      && Property(lib.parse(store[PreloginKey]).value, "maxEpoch") !in {None, Some(Undefined), Some(Null)}
  {
    if !Present(store, PreloginKey) then Threw(MissingPendingLogin)
    else
      match lib.parse(store[PreloginKey])
      case None => Threw(MalformedPendingLogin)
      case Some(p) =>
        match Property(p, "maxEpoch")
        case None => Threw(MalformedPendingLogin)
        case Some(m) =>
          if m == Undefined || m == Null then Threw(MissingMaxEpoch)
          else Done(Pending(m, Property(p, "randomness").value, Property(p, "nonce").value))
  }

  /** Get-or-create the subject's salt: a truthy cached salt is reused,
      otherwise `generated` is stored and used. Returns the salt and the storage. */
  function ResolveSalt(store: Storage, sub: JsValue, generated: string): (r: (string, Storage))
    ensures SaltKey(sub) in r.1 && r.1[SaltKey(sub)] == r.0
    ensures AgreeOutside(store, r.1, {SaltKey(sub)})
    ensures Present(store, SaltKey(sub)) ==> r.0 == store[SaltKey(sub)] && r.1 == store
    ensures !Present(store, SaltKey(sub)) ==> r.0 == generated
  {
    var key := SaltKey(sub);
    if Present(store, key) then (store[key], store) else (generated, store[key := generated])
  }

  /** The object stored under the session key, read off an authenticated state. */
  function SessionRecord(auth: AuthState): (r: map<string, JsValue>)
    requires auth.maxEpoch.Some?
    ensures r.Keys == {"maxEpoch", "nonce", "jwt", "salt", "userAddress", "randomness"}
    ensures "ephemeralKeyPair" !in r
    ensures ToNumber(r["maxEpoch"]) == auth.maxEpoch
    ensures r["jwt"] == auth.jwt && r["salt"] == auth.salt && r["nonce"] == auth.nonce
    ensures r["userAddress"] == auth.userAddress && r["randomness"] == auth.randomness
  {
    map["maxEpoch" := Num(auth.maxEpoch.value), "nonce" := auth.nonce, "jwt" := auth.jwt,
        "salt" := auth.salt, "userAddress" := auth.userAddress, "randomness" := auth.randomness]
  }

  /** `handleJwt(token)`, given the randomness a new salt would take. */
  function HandleJwt(env: Env, auth: AuthState, store: Storage, token: string, freshSalt: string): (r: Step<()>)
    ensures r.calls == []
    ensures ReadPending(env.lib, store).Threw? ==>
      r == Step(auth, store, [], Threw(ReadPending(env.lib, store).error))
    ensures ReadPending(env.lib, store).Done? && env.lib.jwtDecode(token).None? ==>
      r == Step(auth, store, [], Threw(MalformedToken))
    ensures r.outcome.Threw? && env.lib.jwtDecode(token).Some? ==>
      AgreeOutside(store, r.store, {SaltKey(env.lib.jwtDecode(token).value.sub)})
    ensures r.outcome.Threw? && r.auth != auth ==> r.outcome.error == KeyPairUnreadable
    ensures r.outcome.Threw? && ReadPending(env.lib, store).Done? && env.lib.jwtDecode(token).Some? ==>
      r.store == ResolveSalt(store, env.lib.jwtDecode(token).value.sub, freshSalt).1
    ensures r.outcome == Threw(KeyPairUnreadable) ==>
      var salt := ResolveSalt(store, env.lib.jwtDecode(token).value.sub, freshSalt).0;
      var pending := ReadPending(env.lib, store).value;
      && r.auth.isAuthenticated
      && r.auth.jwt == Str(token)
      && r.auth.salt == Str(salt)
      && r.auth.userAddress.Str? && env.lib.jwtToAddress(token, salt) == Some(r.auth.userAddress.s)
      && r.auth.maxEpoch == ToNumber(pending.maxEpoch)
      && r.auth.nonce == pending.nonce
      && r.auth.randomness == pending.randomness
      && r.auth.ephemeralKeyPair == auth.ephemeralKeyPair
    ensures r.outcome == Threw(KeyPairUnreadable) <==>
      && ReadPending(env.lib, store).Done?
      && env.lib.jwtDecode(token).Some?
      && var salted := ResolveSalt(store, env.lib.jwtDecode(token).value.sub, freshSalt);
      && env.lib.jwtToAddress(token, salted.0).Some?
      && ToNumber(ReadPending(env.lib, store).value.maxEpoch).Some?
      && Present(salted.1, env.cfg.keyPairKey) && env.lib.importSecret(salted.1[env.cfg.keyPairKey]).None?
    ensures r.outcome.Done? <==>
      && ReadPending(env.lib, store).Done?
      && env.lib.jwtDecode(token).Some?
      && var salted := ResolveSalt(store, env.lib.jwtDecode(token).value.sub, freshSalt);
      && env.lib.jwtToAddress(token, salted.0).Some?
      && ToNumber(ReadPending(env.lib, store).value.maxEpoch).Some?
      && (!Present(salted.1, env.cfg.keyPairKey) || env.lib.importSecret(salted.1[env.cfg.keyPairKey]).Some?)
    ensures r.outcome.Done? ==>
      var sub := env.lib.jwtDecode(token).value.sub;
      var salt := ResolveSalt(store, sub, freshSalt).0;
      var pending := ReadPending(env.lib, store).value;
      && r.auth.isAuthenticated
      && r.auth.jwt == Str(token)
      && r.auth.salt == Str(salt)
      && r.auth.userAddress.Str? && env.lib.jwtToAddress(token, salt) == Some(r.auth.userAddress.s)
      && ToNumber(pending.maxEpoch).Some?
      && r.auth.maxEpoch == ToNumber(pending.maxEpoch)
      && r.auth.nonce == pending.nonce
      && r.auth.randomness == pending.randomness
      && var store1 := ResolveSalt(store, sub, freshSalt).1;
      && r.auth.ephemeralKeyPair == (if Present(store1, env.cfg.keyPairKey)
                                     then env.lib.importSecret(store1[env.cfg.keyPairKey])
                                     else auth.ephemeralKeyPair)
      && PreloginKey !in r.store
      && SessionKey in r.store && r.store[SessionKey] == env.lib.stringify(SessionRecord(r.auth))
      && SaltKey(sub) in r.store && r.store[SaltKey(sub)] == salt
      && AgreeOutside(store, r.store, {PreloginKey, SessionKey, SaltKey(sub)})
  {
    var lib := env.lib;
    match ReadPending(lib, store)
    case Threw(e) => Step(auth, store, [], Threw(e))
    case Done(pending) =>
      match lib.jwtDecode(token)
      case None => Step(auth, store, [], Threw(MalformedToken))
      case Some(claims) =>
        var (salt, store1) := ResolveSalt(store, claims.sub, freshSalt);
        SaltKeyShape(claims.sub);
        match lib.jwtToAddress(token, salt)
        case None => Step(auth, store1, [], Threw(AddressDerivationFailed))
        case Some(address) =>
          match ToNumber(pending.maxEpoch)
          case None => Step(auth, store1, [], Threw(InvalidMaxEpoch))
          case Some(n) =>
            var auth1 := auth.(maxEpoch := Some(n), jwt := Str(token), salt := Str(salt),
                               userAddress := Str(address), isAuthenticated := true,
                               randomness := pending.randomness, nonce := pending.nonce);
            var key := env.cfg.keyPairKey;
            if Present(store1, key) && lib.importSecret(store1[key]).None? then
              Step(auth1, store1, [], Threw(KeyPairUnreadable))
            else
              var auth2 := if Present(store1, key) then auth1.(ephemeralKeyPair := lib.importSecret(store1[key])) else auth1;
              var store2 := store1[SessionKey := lib.stringify(SessionRecord(auth2))];
              Step(auth2, store2 - {PreloginKey}, [], Done(()))
  }

  // ---------------------------------------------------------------------
  // logout

  /** `logout()`: clear the session fields, drop the session record and the
      demo key-pair slot. */
  function Logout(auth: AuthState, store: Storage): (r: Step<()>)
    ensures !r.auth.isAuthenticated && r.auth.userAddress == Str("")
    ensures r.auth.maxEpoch == None
    ensures r.auth.nonce == Null && r.auth.jwt == Null && r.auth.salt == Null && r.auth.randomness == Null
    ensures r.auth.ephemeralKeyPair == auth.ephemeralKeyPair
    ensures SessionKey !in r.store && DemoKeyPairKey !in r.store
    ensures AgreeOutside(store, r.store, {SessionKey, DemoKeyPairKey})
    ensures r.calls == [] && r.outcome == Done(())
  {
    var cleared := auth.(isAuthenticated := false, userAddress := Str(""), maxEpoch := None,
                         nonce := Null, jwt := Null, salt := Null, randomness := Null);
    Step(cleared, store - {SessionKey, DemoKeyPairKey}, [], Done(()))
  }

  // ---------------------------------------------------------------------
  // Session-restore effect

  /** The `id_token` of the location fragment (`location.hash`, '#' included). */
  function FragmentToken(locationHash: string): (r: Option<string>)
    ensures locationHash == [] ==> r.None?
    ensures r.Some? ==> '&' !in r.value
  {
    var hash := if locationHash == [] then [] else locationHash[1..];
    Urls.SearchParam(hash, "id_token")
  }

  /** The session-restore effect: reload the stored session, then hand a
      fragment token to `handleJwt` if the state it was rendered with is not
      authenticated. A session record that does not parse throws. */
  function RestoreSession(env: Env, auth: AuthState, store: Storage, locationHash: string): (r: Step<()>)
    ensures r.store == store
    ensures !Present(store, SessionKey) ==> r.auth == auth
    ensures r.outcome.Threw? ==> r.auth == auth && r.calls == [] && r.outcome.error == MalformedSession
    ensures r.outcome.Done? && Present(store, SessionKey) ==> r.auth.isAuthenticated
    ensures r.outcome.Threw? <==>
      && Present(store, SessionKey)
      && (env.lib.parse(store[SessionKey]).None? || Property(env.lib.parse(store[SessionKey]).value, "maxEpoch").None?)
    ensures r.outcome.Done? && Present(store, SessionKey) ==>
      && env.lib.parse(store[SessionKey]).Some?
      && var p := env.lib.parse(store[SessionKey]).value;
      && Property(p, "maxEpoch").Some?
      && Some(r.auth.nonce) == Property(p, "nonce")
      && Some(r.auth.jwt) == Property(p, "jwt")
      && Some(r.auth.salt) == Property(p, "salt")
      && Some(r.auth.userAddress) == Property(p, "userAddress")
      && Some(r.auth.randomness) == Property(p, "randomness")
      && var epoch := ToNumber(Property(p, "maxEpoch").value);
      && r.auth.maxEpoch == (if epoch.Some? then epoch else auth.maxEpoch)
    ensures r.auth.ephemeralKeyPair == auth.ephemeralKeyPair
    ensures r.calls != [] ==>
      && !auth.isAuthenticated
      && FragmentToken(locationHash).Some? && FragmentToken(locationHash).value != ""
      && r.calls == [HandleToken(FragmentToken(locationHash).value)]
    ensures r.outcome.Done? && !auth.isAuthenticated && FragmentToken(locationHash).Some? && FragmentToken(locationHash).value != "" ==>
      r.calls == [HandleToken(FragmentToken(locationHash).value)]
  {
    var token := FragmentToken(locationHash);
    var handoff := if token.Some? && token.value != "" && !auth.isAuthenticated then [HandleToken(token.value)] else [];
    if !Present(store, SessionKey) then Step(auth, store, handoff, Done(()))
    else
      match env.lib.parse(store[SessionKey])
      case None => Step(auth, store, [], Threw(MalformedSession))
      case Some(p) =>
        if Property(p, "maxEpoch").None? then Step(auth, store, [], Threw(MalformedSession))
        else
          var epoch := ToNumber(Property(p, "maxEpoch").value);
          var restored := auth.(
            maxEpoch := if epoch.Some? then epoch else auth.maxEpoch,
            nonce := Property(p, "nonce").value,
            jwt := Property(p, "jwt").value,
            salt := Property(p, "salt").value,
            userAddress := Property(p, "userAddress").value,
            randomness := Property(p, "randomness").value,
            isAuthenticated := true);
          Step(restored, store, handoff, Done(()))
  }

  // ---------------------------------------------------------------------
  // getZkProof / fetchZkProof

  /** `maxEpoch` is truthy: set, and not 0. */
  predicate EpochSet(maxEpoch: Option<int>) {
    maxEpoch.Some? && maxEpoch.value != 0
  }

  /** The guard of `getZkProof`. */
  predicate ProofMaterial(auth: AuthState) {
    Truthy(auth.jwt) && auth.ephemeralKeyPair.Some? && EpochSet(auth.maxEpoch)
      && Truthy(auth.randomness) && Truthy(auth.salt)
  }

  /** The guard of `sendTransaction`; it does not look at `randomness`. */
  predicate SignerMaterial(auth: AuthState) {
    Truthy(auth.jwt) && Truthy(auth.salt) && auth.ephemeralKeyPair.Some? && EpochSet(auth.maxEpoch)
  }

  /** The extended ephemeral public key of the state's key pair; None when
      `getExtendedEphemeralPublicKey` (or loading it) throws. */
  function ExtendedKey(lib: Library, auth: AuthState): Option<string>
    requires auth.ephemeralKeyPair.Some?
  {
    lib.extendedPublicKey(lib.publicKey(auth.ephemeralKeyPair.value))
  }

  /** The proof request built from the current state; None when the
      extended public key cannot be computed. */
  function ProofRequest(lib: Library, auth: AuthState): (req: Option<ZkRequest>)
    requires auth.ephemeralKeyPair.Some? && auth.maxEpoch.Some?
    ensures req.Some? <==> ExtendedKey(lib, auth).Some?
    ensures req.Some? ==>
      && req.value.keyClaimName == "sub"
      && req.value.extendedEphemeralPublicKey == ExtendedKey(lib, auth).value
      && ToNumber(Str(req.value.maxEpoch)) == auth.maxEpoch
      && req.value.jwt == auth.jwt && req.value.salt == auth.salt && req.value.jwtRandomness == auth.randomness
  {
    NumberOfIntText(auth.maxEpoch.value);
    match ExtendedKey(lib, auth)
    case None => None
    case Some(extended) =>
      Some(ZkRequest(auth.jwt, extended, Numbers.IntText(auth.maxEpoch.value), auth.randomness, auth.salt, "sub"))
  }

  /** `getZkProof()` with `fetchZkProof`: at most one POST, failing closed. */
  function GetZkProof(env: Env, auth: AuthState, reply: ProverReply): (r: Run<ZkProof>)
    ensures !ProofMaterial(auth) ==> r == Run([], Threw(MissingAuthData))
    ensures ProofMaterial(auth) && ProofRequest(env.lib, auth).None? ==> r == Run([], Threw(KeyEncodingFailed))
    ensures ProofMaterial(auth) && ProofRequest(env.lib, auth).Some? ==>
      r.calls == [PostProof(ProofRequest(env.lib, auth).value)]
    ensures r.outcome.Done? <==>
      ProofMaterial(auth) && ProofRequest(env.lib, auth).Some? && reply.Response? && reply.ok
    ensures r.outcome.Done? ==> r.outcome.value == reply.proof
    ensures ProofMaterial(auth) && ProofRequest(env.lib, auth).Some? && r.outcome.Threw? ==>
      r.outcome.error == ProofServiceFailure
  {
    if !ProofMaterial(auth) then Run([], Threw(MissingAuthData))
    else
      match ProofRequest(env.lib, auth)
      case None => Run([], Threw(KeyEncodingFailed))
      case Some(req) =>
        var calls := [PostProof(req)];
        match reply
        case TransportFailed => Run(calls, Threw(ProofServiceFailure))
        case Response(ok, proof) => if ok then Run(calls, Done(proof)) else Run(calls, Threw(ProofServiceFailure))
  }

  // ---------------------------------------------------------------------
  // sendTransaction

  /** The number of ledger submissions among `calls`. */
  function Executions(calls: seq<Call>): nat {
    if calls == [] then 0 else (if calls[0].Execute? then 1 else 0) + Executions(calls[1..])
  }

  lemma {:induction false} ExecutionsAppend(a: seq<Call>, b: seq<Call>)
    ensures Executions(a + b) == Executions(a) + Executions(b)
  {
    if a == [] {
      assert a + b == b;
    } else {
      assert (a + b)[0] == a[0];
      assert (a + b)[1..] == a[1..] + b;
      ExecutionsAppend(a[1..], b);
    }
  }

  /** The transfer `sendTransaction` builds for `coins` whole coins. */
  function TransferOf(auth: AuthState, recipient: string, coins: int): Transfer {
    Transfer(auth.userAddress, recipient, MistPerSui * coins)
  }

  /** The address seed `sendTransaction` derives: decode the stored token
      again, read the salt with `BigInt` and call `genAddressSeed`; each step
      can throw. */
  function AddressSeed(lib: Library, auth: AuthState): (r: Outcome<string>)
    ensures r.Done? <==>
      && auth.jwt.Str? && lib.jwtDecode(auth.jwt.s).Some? && ToBigInt(auth.salt).Some?
      && var claims := lib.jwtDecode(auth.jwt.s).value;
      lib.genAddressSeed(ToBigInt(auth.salt).value, "sub", claims.sub, claims.aud).Some?
    ensures r.Done? ==>
      var claims := lib.jwtDecode(auth.jwt.s).value;
      Some(r.value) == lib.genAddressSeed(ToBigInt(auth.salt).value, "sub", claims.sub, claims.aud)
    ensures r.Threw? ==> r.error in {MalformedToken, MalformedSalt, AddressSeedFailed}
  {
    if !auth.jwt.Str? || lib.jwtDecode(auth.jwt.s).None? then Threw(MalformedToken)
    else
      var claims := lib.jwtDecode(auth.jwt.s).value;
      match ToBigInt(auth.salt)
      case None => Threw(MalformedSalt)
      case Some(saltValue) =>
        match lib.genAddressSeed(saltValue, "sub", claims.sub, claims.aud)
        case None => Threw(AddressSeedFailed)
        case Some(seed) => Done(seed)
  }

  /** The zkLogin signature composed for the signed transaction `tx`; None
      when the address seed or `getZkLoginSignature` throws. */
  function ZkSignature(lib: Library, auth: AuthState, proof: ZkProof, tx: SignedTx): Option<string>
    requires auth.maxEpoch.Some?
  {
    match AddressSeed(lib, auth)
    case Threw(_) => None
    case Done(seed) => lib.zkLoginSignature(proof, seed, auth.maxEpoch.value, tx.signature)
  }

  /** The part of `sendTransaction` after the proof arrived: convert the
      amount with `BigInt`, build and sign the transfer, derive the address
      seed from a re-decoded token, compose the zkLogin signature and submit
      once. `amount` is the JavaScript number the caller passed. */
  function Submit(env: Env, auth: AuthState, recipient: string, amount: real, proof: ZkProof,
                  signed: Option<SignedTx>, ledger: Option<ExecResult>): (r: Run<Option<ExecResult>>)
    requires SignerMaterial(auth)
    ensures NumberToBigInt(amount).None? ==> r == Run([], Threw(InvalidAmount))
    ensures NumberToBigInt(amount).Some? ==>
      && |r.calls| >= 1
      && r.calls[0] == SignTransaction(TransferOf(auth, recipient, NumberToBigInt(amount).value), auth.ephemeralKeyPair.value)
    ensures NumberToBigInt(amount).Some? ==>
      var sign := [SignTransaction(TransferOf(auth, recipient, NumberToBigInt(amount).value), auth.ephemeralKeyPair.value)];
      && (signed.None? ==> r == Run(sign, Threw(SigningFailed)))
      && (signed.Some? && AddressSeed(env.lib, auth).Threw? ==>
            r == Run(sign, Threw(AddressSeed(env.lib, auth).error)))
      && (signed.Some? && AddressSeed(env.lib, auth).Done? && ZkSignature(env.lib, auth, proof, signed.value).None? ==>
            r == Run(sign, Threw(SignatureAssemblyFailed)))
    ensures Executions(r.calls) <= 1
    ensures Executions(r.calls) == 1 <==>
      NumberToBigInt(amount).Some? && signed.Some? && ZkSignature(env.lib, auth, proof, signed.value).Some?
    ensures Executions(r.calls) == 1 ==>
      r.calls == [SignTransaction(TransferOf(auth, recipient, NumberToBigInt(amount).value), auth.ephemeralKeyPair.value),
                  Execute(signed.value.bytes, ZkSignature(env.lib, auth, proof, signed.value).value)]
    ensures r.outcome.Done? <==> Executions(r.calls) == 1 && ledger.Some?
    ensures r.outcome.Done? ==> r.outcome.value == ledger
  {
    match NumberToBigInt(amount)
    case None => Run([], Threw(InvalidAmount))
    case Some(coins) =>
      var signCalls := [SignTransaction(TransferOf(auth, recipient, coins), auth.ephemeralKeyPair.value)];
      assert Executions(signCalls) == 0;
      match signed
      case None => Run(signCalls, Threw(SigningFailed))
      case Some(tx) =>
        match AddressSeed(env.lib, auth)
        case Threw(e) => Run(signCalls, Threw(e))
        case Done(seed) =>
          match env.lib.zkLoginSignature(proof, seed, auth.maxEpoch.value, tx.signature)
          case None => Run(signCalls, Threw(SignatureAssemblyFailed))
          case Some(signature) =>
            var calls := signCalls + [Execute(tx.bytes, signature)];
            assert Executions(calls) == 1 by {
              ExecutionsAppend(signCalls, [Execute(tx.bytes, signature)]);
            }
            match ledger
            case None => Run(calls, Threw(LedgerSubmissionFailure))
            case Some(result) => Run(calls, Done(Some(result)))
  }

  /** `sendTransaction(recipient, amount)`, given the prover's reply, the
      signed transaction (None: building or signing threw) and the ledger's
      answer (None: the submission was rejected). `Done(None)` is the silent
      `return` on missing material. */
  function SendTransaction(env: Env, auth: AuthState, recipient: string, amount: real,
                           prover: ProverReply, signed: Option<SignedTx>,
                           ledger: Option<ExecResult>): (r: Run<Option<ExecResult>>)
    ensures r.outcome == Done(None) <==> !SignerMaterial(auth)
    ensures !SignerMaterial(auth) ==> r.calls == []
    ensures SignerMaterial(auth) && !ProofMaterial(auth) ==> r == Run([], Threw(MissingAuthData))
    ensures SignerMaterial(auth) && GetZkProof(env, auth, prover).outcome.Threw? ==>
      r == Run(GetZkProof(env, auth, prover).calls, Threw(GetZkProof(env, auth, prover).outcome.error))
    ensures ProofMaterial(auth) && ProofRequest(env.lib, auth).None? ==> r == Run([], Threw(KeyEncodingFailed))
    ensures ProofMaterial(auth) && ProofRequest(env.lib, auth).Some? && prover.Response? && prover.ok
            && NumberToBigInt(amount).None? ==>
      r == Run([PostProof(ProofRequest(env.lib, auth).value)], Threw(InvalidAmount))
    ensures Executions(r.calls) <= 1
    ensures Executions(r.calls) == 1 ==>
      && ProofMaterial(auth) && ProofRequest(env.lib, auth).Some? && prover.Response? && prover.ok
      && NumberToBigInt(amount).Some?
      && |r.calls| >= 2
      && signed.Some? && ZkSignature(env.lib, auth, prover.proof, signed.value).Some?
      && r.calls == [PostProof(ProofRequest(env.lib, auth).value),
                     SignTransaction(TransferOf(auth, recipient, NumberToBigInt(amount).value), auth.ephemeralKeyPair.value),
                     Execute(signed.value.bytes, ZkSignature(env.lib, auth, prover.proof, signed.value).value)]
    ensures r.outcome.Done? && r.outcome.value.Some? <==> Executions(r.calls) == 1 && ledger.Some?
    ensures r.outcome.Done? && r.outcome.value.Some? ==> r.outcome.value == ledger
  {
    if !SignerMaterial(auth) then Run([], Done(None))
    else
      var proofRun := GetZkProof(env, auth, prover);
      assert Executions(proofRun.calls) == 0;
      match proofRun.outcome
      case Threw(e) => Run(proofRun.calls, Threw(e))
      case Done(proof) =>
        var rest := Submit(env, auth, recipient, amount, proof, signed, ledger);
        ExecutionsAppend(proofRun.calls, rest.calls);
        Run(proofRun.calls + rest.calls, rest.outcome)
  }
}

=== FILE: flows.dfy ===
/** Properties of the login flow that span several handlers or whole
    scenarios: redirect out and back, reload, logout, and sending. */
module Flows {
  import opened Wrappers
  import opened Js
  import opened Foreign
  import opened AuthContext
  import Numbers
  import Urls

  /** No character that would end a query value early. */
  predicate QuerySafe(s: string) {
    '&' !in s && '#' !in s
  }

  // ---------------------------------------------------------------------
  // The redirect URL

  /** A parameter of `base?p1&p2&...` is looked up among the pairs. */
  lemma UrlParamOfJoin(base: string, parts: seq<string>, name: string)
    requires '?' !in base && |parts| >= 1
    requires forall i :: 0 <= i < |parts| ==> QuerySafe(parts[i])
    requires parts[0] == [] || parts[0][0] != '?'
    ensures Urls.UrlParam(base + "?" + Urls.Join(parts, '&'), name) == Urls.Lookup(parts, name)
  {
    var query := Urls.Join(parts, '&');
    Urls.CutUnique(base + "?" + query, '?', base, query);
    JoinKeepsOut(parts, '&', '#');
    JoinStartsWithFirst(parts, '&');
    Urls.SplitJoin(parts, '&');
  }

  lemma {:induction false} JoinStartsWithFirst(parts: seq<string>, sep: char)
    requires |parts| >= 1
    ensures |Urls.Join(parts, sep)| >= |parts[0]|
    ensures Urls.Join(parts, sep)[..|parts[0]|] == parts[0]
  {
    if |parts| > 1 {
      var rest := Urls.Join(parts[1..], sep);
      assert Urls.Join(parts, sep) == parts[0] + ([sep] + rest);
    }
  }

  lemma GoogleNamesPlain()
    ensures forall j :: 0 <= j < |GoogleParamNames| ==> '=' !in GoogleParamNames[j]
    ensures forall j :: 0 <= j < |GoogleParamNames| ==> QuerySafe(GoogleParamNames[j])
    ensures forall i, j :: 0 <= j < i < |GoogleParamNames| ==> GoogleParamNames[j] != GoogleParamNames[i]
  {
  }

  /** Every parameter of the Google URL reads back as written: the nonce
      the token will carry, the implicit-flow `response_type=id_token`, the
      callback, the scope and the client. */
  lemma GoogleUrlParameters(clientId: string, redirectUrl: string, nonce: string)
    requires QuerySafe(clientId) && QuerySafe(redirectUrl) && QuerySafe(nonce)
    ensures var url := GoogleAuthUrl(clientId, redirectUrl, nonce);
      && Urls.UrlParam(url, "nonce") == Some(nonce)
      && Urls.UrlParam(url, "response_type") == Some("id_token")
      && Urls.UrlParam(url, "redirect_uri") == Some(redirectUrl)
      && Urls.UrlParam(url, "scope") == Some("openid")
      && Urls.UrlParam(url, "client_id") == Some(clientId)
  {
    var names := GoogleParamNames;
    var values := GoogleParamValues(clientId, redirectUrl, nonce);
    var parts := GoogleAuthParams(clientId, redirectUrl, nonce);
    GoogleNamesPlain();
    assert forall j :: 0 <= j < |values| ==> QuerySafe(values[j]);
    Urls.PairsAvoid(names, values, '&');
    Urls.PairsAvoid(names, values, '#');
    assert parts[0][0] == 'c' by {
      assert parts[0] == names[0] + "=" + values[0];
      assert names[0][0] == 'c';
    }
    forall i | 0 <= i < |names| ensures Urls.UrlParam(GoogleAuthUrl(clientId, redirectUrl, nonce), names[i]) == Some(values[i]) {
      UrlParamOfJoin(GoogleEndpoint, parts, names[i]);
      Urls.LookupPairs(names, values, i);
    }
    assert names[4] == "nonce" && names[1] == "response_type" && names[2] == "redirect_uri";
    assert names[3] == "scope" && names[0] == "client_id";
  }

  /** Joining texts that lack `c` with a separator other than `c` gives a text without `c`. */
  lemma {:induction false} JoinKeepsOut(parts: seq<string>, sep: char, c: char)
    requires |parts| >= 1 && sep != c
    requires forall i :: 0 <= i < |parts| ==> c !in parts[i]
    ensures c !in Urls.Join(parts, sep)
    decreases |parts|
  {
    if |parts| > 1 {
      JoinKeepsOut(parts[1..], sep, c);
    }
  }

  // ---------------------------------------------------------------------
  // login

  /** A login whose epoch is missing or NaN leaves the pending slot as it
      was and navigates nowhere; the key-pair slot is already overwritten
      and the in-memory key pair already replaced. */
  lemma LoginEpochFailure(env: Env, auth: AuthState, store: Storage, provider: Provider,
                          kp: KeyPair, reply: EpochReply, randomness: string)
    requires AcceptedEpoch(reply).None? && env.cfg.keyPairKey != PreloginKey
    ensures var r := Login(env, auth, store, provider, kp, reply, randomness);
      && r.outcome.Threw?
      && (PreloginKey in r.store <==> PreloginKey in store)
      && (PreloginKey in store ==> r.store[PreloginKey] == store[PreloginKey])
      && (forall i :: 0 <= i < |r.calls| ==> !r.calls[i].Navigate?)
      && r.store[env.cfg.keyPairKey] == env.lib.exportSecret(kp)
      && r.auth.ephemeralKeyPair == Some(kp)
      && r.auth.maxEpoch == auth.maxEpoch && r.auth.nonce == auth.nonce && r.auth.randomness == auth.randomness
  {
  }

  /** A successful Google login redirects to a URL whose `nonce` parameter
      is the nonce bound to the new key pair, the accepted epoch and the
      fresh randomness, and whose `response_type` is `id_token`. */
  lemma LoginRedirectCarriesNonce(env: Env, auth: AuthState, store: Storage, kp: KeyPair,
                                  reply: EpochReply, randomness: string, n: int)
    requires AcceptedEpoch(reply) == Some(n)
    requires QuerySafe(env.cfg.googleClientId) && QuerySafe(env.cfg.origin + CallbackPath)
    requires QuerySafe(env.lib.generateNonce(env.lib.publicKey(kp), n, randomness))
    ensures var r := Login(env, auth, store, Google, kp, reply, randomness);
      var nonce := env.lib.generateNonce(env.lib.publicKey(kp), n, randomness);
      && r.auth.nonce == Str(nonce)
      && |r.calls| == 2 && r.calls[1].Navigate?
      && Urls.UrlParam(r.calls[1].url, "nonce") == Some(nonce)
      && Urls.UrlParam(r.calls[1].url, "response_type") == Some("id_token")
      && Urls.UrlParam(r.calls[1].url, "redirect_uri") == Some(env.cfg.origin + CallbackPath)
  {
    var nonce := env.lib.generateNonce(env.lib.publicKey(kp), n, randomness);
    GoogleUrlParameters(env.cfg.googleClientId, env.cfg.origin + CallbackPath, nonce);
  }

  /** What a successful login leaves in the pending slot is what the
      callback reads back: the accepted epoch, the randomness and the nonce. */
  lemma LoginRecordReadsBack(env: Env, auth: AuthState, store: Storage, provider: Provider,
                             kp: KeyPair, reply: EpochReply, randomness: string)
    requires JsonRoundTrips(env.lib) && env.cfg.keyPairKey != PreloginKey
    requires Login(env, auth, store, provider, kp, reply, randomness).outcome.Done?
    ensures var r := Login(env, auth, store, provider, kp, reply, randomness);
      ReadPending(env.lib, r.store) == Done(Pending(Num(AcceptedEpoch(reply).value), Str(randomness), r.auth.nonce))
  {
    var r := Login(env, auth, store, provider, kp, reply, randomness);
    var n := AcceptedEpoch(reply).value;
    var nonce := env.lib.generateNonce(env.lib.publicKey(kp), n, randomness);
    PendingReadsBack(env.lib, r.store, n, randomness, nonce, kp);
  }

  /** A serialised pending record reads back as its epoch, randomness and nonce. */
  lemma PendingReadsBack(lib: Library, store: Storage, n: int, randomness: string, nonce: string, kp: KeyPair)
    requires JsonRoundTrips(lib)
    requires PreloginKey in store && store[PreloginKey] == lib.stringify(PendingRecord(lib, n, randomness, nonce, kp))
    ensures ReadPending(lib, store) == Done(Pending(Num(n), Str(randomness), Str(nonce)))
  {
    var record := PendingRecord(lib, n, randomness, nonce, kp);
    assert lib.stringify(record) != "";
    assert lib.parse(store[PreloginKey]) == Some(Object(Defined(record)));
    assert Property(Object(Defined(record)), "maxEpoch") == Some(Num(n));
    assert Property(Object(Defined(record)), "randomness") == Some(Str(randomness));
    assert Property(Object(Defined(record)), "nonce") == Some(Str(nonce));
  }

  /** A second login replaces the unfinished first one: one pending slot,
      holding only the newest attempt. */
  lemma SecondLoginReplacesPending(env: Env, auth: AuthState, store: Storage, provider: Provider,
                                   kp1: KeyPair, reply1: EpochReply, rand1: string,
                                   kp2: KeyPair, reply2: EpochReply, rand2: string)
    requires JsonRoundTrips(env.lib) && env.cfg.keyPairKey != PreloginKey
    requires Login(env, auth, store, provider, kp1, reply1, rand1).outcome.Done?
    requires AcceptedEpoch(reply2).Some?
    ensures var r1 := Login(env, auth, store, provider, kp1, reply1, rand1);
      var r2 := Login(env, r1.auth, r1.store, provider, kp2, reply2, rand2);
      && ReadPending(env.lib, r2.store) == Done(Pending(Num(AcceptedEpoch(reply2).value), Str(rand2), r2.auth.nonce))
      && r2.auth.ephemeralKeyPair == Some(kp2)
      && r2.store[env.cfg.keyPairKey] == env.lib.exportSecret(kp2)
  {
    var r1 := Login(env, auth, store, provider, kp1, reply1, rand1);
    LoginRecordReadsBack(env, r1.auth, r1.store, provider, kp2, reply2, rand2);
  }

  // ---------------------------------------------------------------------
  // handleJwt

  lemma KeyPairKeyIsNoSaltKey(cfg: Config, sub: JsValue)
    requires SeparateKeys(cfg)
    ensures cfg.keyPairKey != SaltKey(sub)
  {
    SaltKeyShape(sub);
  }

  /** Redirect out and back: after a successful login, a callback whose
      token decodes and yields an address authenticates with the login's
      epoch, nonce, randomness and key pair, and consumes the pending record. */
  lemma LoginThenCallback(env: Env, auth: AuthState, store: Storage, provider: Provider, kp: KeyPair,
                          reply: EpochReply, randomness: string, token: string, freshSalt: string)
    requires JsonRoundTrips(env.lib) && KeyExportRoundTrips(env.lib) && ExportIsNonEmpty(env.lib)
    requires SeparateKeys(env.cfg)
    requires Login(env, auth, store, provider, kp, reply, randomness).outcome.Done?
    requires env.lib.jwtDecode(token).Some?
    requires var r1 := Login(env, auth, store, provider, kp, reply, randomness);
      env.lib.jwtToAddress(token, ResolveSalt(r1.store, env.lib.jwtDecode(token).value.sub, freshSalt).0).Some?
    ensures var r1 := Login(env, auth, store, provider, kp, reply, randomness);
      var r2 := HandleJwt(env, r1.auth, r1.store, token, freshSalt);
      && r2.outcome.Done?
      && r2.auth.isAuthenticated
      && r2.auth.maxEpoch == AcceptedEpoch(reply)
      && r2.auth.nonce == r1.auth.nonce
      && r2.auth.randomness == Str(randomness)
      && r2.auth.ephemeralKeyPair == Some(kp)
      && PreloginKey !in r2.store
  {
    var r1 := Login(env, auth, store, provider, kp, reply, randomness);
    LoginRecordReadsBack(env, auth, store, provider, kp, reply, randomness);
    var sub := env.lib.jwtDecode(token).value.sub;
    var store1 := ResolveSalt(r1.store, sub, freshSalt).1;
    KeyPairKeyIsNoSaltKey(env.cfg, sub);
    assert store1[env.cfg.keyPairKey] == env.lib.exportSecret(kp);
    assert Present(store1, env.cfg.keyPairKey);
    assert env.lib.importSecret(store1[env.cfg.keyPairKey]) == Some(kp);
  }

  /** Restoring from a session record written from an authenticated state
      rebuilds that state on any provider, whose own key pair is kept. */
  lemma RestoreFromRecord(env: Env, start: AuthState, a: AuthState, store: Storage, locationHash: string)
    requires JsonRoundTrips(env.lib)
    requires a.isAuthenticated && a.maxEpoch.Some?
    requires SessionKey in store && store[SessionKey] == env.lib.stringify(SessionRecord(a))
    ensures var back := RestoreSession(env, start, store, locationHash);
      back.outcome.Done? && back.auth == a.(ephemeralKeyPair := start.ephemeralKeyPair)
  {
    var record := SessionRecord(a);
    assert env.lib.stringify(record) != "";
    var p := Object(Defined(record));
    assert env.lib.parse(store[SessionKey]) == Some(p);
    assert Property(p, "maxEpoch") == Some(Num(a.maxEpoch.value));
    assert Property(p, "nonce") == Some(a.nonce);
    assert Property(p, "jwt") == Some(a.jwt);
    assert Property(p, "salt") == Some(a.salt);
    assert Property(p, "userAddress") == Some(a.userAddress);
    assert Property(p, "randomness") == Some(a.randomness);
  }

  /** Reload after a successful callback: the session-restore effect,
      starting from a fresh provider, rebuilds every field the callback set
      except the key pair (which the mount effect restores). */
  lemma CallbackThenReload(env: Env, auth: AuthState, store: Storage, token: string, freshSalt: string,
                           locationHash: string)
    requires JsonRoundTrips(env.lib)
    requires HandleJwt(env, auth, store, token, freshSalt).outcome.Done?
    ensures var r := HandleJwt(env, auth, store, token, freshSalt);
      var back := RestoreSession(env, Initial, r.store, locationHash);
      back.outcome.Done? && back.auth == r.auth.(ephemeralKeyPair := None)
  {
    var r := HandleJwt(env, auth, store, token, freshSalt);
    RestoreFromRecord(env, Initial, r.auth, r.store, locationHash);
  }

  /** A full reload (mount effect, then session restore) gives back exactly
      the state the callback produced, when a key pair was stored. */
  lemma ReloadRestoresSession(env: Env, auth: AuthState, store: Storage, token: string, freshSalt: string,
                              locationHash: string)
    requires JsonRoundTrips(env.lib) && SeparateKeys(env.cfg)
    requires HandleJwt(env, auth, store, token, freshSalt).outcome.Done?
    requires Present(HandleJwt(env, auth, store, token, freshSalt).store, env.cfg.keyPairKey)
    ensures var r := HandleJwt(env, auth, store, token, freshSalt);
      var mounted := RestoreKeyPair(env, Initial, r.store);
      var back := RestoreSession(env, mounted.auth, mounted.store, locationHash);
      back.outcome.Done? && back.auth == r.auth
  {
    var r := HandleJwt(env, auth, store, token, freshSalt);
    var sub := env.lib.jwtDecode(token).value.sub;
    var store1 := ResolveSalt(store, sub, freshSalt).1;
    KeyPairKeyIsNoSaltKey(env.cfg, sub);
    assert r.store[env.cfg.keyPairKey] == store1[env.cfg.keyPairKey];
    var mounted := RestoreKeyPair(env, Initial, r.store);
    assert mounted.store == r.store;
    assert mounted.auth.ephemeralKeyPair == r.auth.ephemeralKeyPair;
    RestoreFromRecord(env, mounted.auth, r.auth, r.store, locationHash);
  }

  /** The salt of a subject never changes once a truthy one is stored:
      a later callback for the same subject, from any storage that still
      holds that salt, uses it again, and for the same token derives the
      same address. */
  lemma SaltIsStable(env: Env, auth1: AuthState, store1: Storage, token1: string, salt1: string,
                     auth2: AuthState, store2: Storage, token2: string, salt2: string)
    requires HandleJwt(env, auth1, store1, token1, salt1).outcome.Done?
    requires HandleJwt(env, auth2, store2, token2, salt2).outcome.Done?
    requires Truthy(HandleJwt(env, auth1, store1, token1, salt1).auth.salt)
    requires env.lib.jwtDecode(token2).value.sub == env.lib.jwtDecode(token1).value.sub
    requires var key := SaltKey(env.lib.jwtDecode(token1).value.sub);
      var r1 := HandleJwt(env, auth1, store1, token1, salt1);
      key in store2 && store2[key] == r1.store[key]
    ensures var r1 := HandleJwt(env, auth1, store1, token1, salt1);
      var r2 := HandleJwt(env, auth2, store2, token2, salt2);
      && r2.auth.salt == r1.auth.salt
      && (token2 == token1 ==> r2.auth.userAddress == r1.auth.userAddress)
  {
  }

  /** Signing in again as the same subject, after logging out and starting
      a new login, yields the same salt and, for the same token, the same
      address: the salt cache outlives both. */
  lemma SameAddressAfterRelogin(env: Env, auth: AuthState, store: Storage, token: string, salt1: string,
                                provider: Provider, kp: KeyPair, reply: EpochReply, randomness: string,
                                salt2: string)
    requires SeparateKeys(env.cfg)
    requires HandleJwt(env, auth, store, token, salt1).outcome.Done?
    requires Truthy(HandleJwt(env, auth, store, token, salt1).auth.salt)
    requires var r1 := HandleJwt(env, auth, store, token, salt1);
      var out := Logout(r1.auth, r1.store);
      var r2 := Login(env, out.auth, out.store, provider, kp, reply, randomness);
      HandleJwt(env, r2.auth, r2.store, token, salt2).outcome.Done?
    ensures var r1 := HandleJwt(env, auth, store, token, salt1);
      var out := Logout(r1.auth, r1.store);
      var r2 := Login(env, out.auth, out.store, provider, kp, reply, randomness);
      var r3 := HandleJwt(env, r2.auth, r2.store, token, salt2);
      r3.auth.salt == r1.auth.salt && r3.auth.userAddress == r1.auth.userAddress
  {
    var r1 := HandleJwt(env, auth, store, token, salt1);
    var out := Logout(r1.auth, r1.store);
    var r2 := Login(env, out.auth, out.store, provider, kp, reply, randomness);
    var sub := env.lib.jwtDecode(token).value.sub;
    SaltKeyShape(sub);
    LoginKeepsSaltCache(env, out.auth, out.store, provider, kp, reply, randomness, sub);
    assert r2.store[SaltKey(sub)] == r1.store[SaltKey(sub)];
    SaltIsStable(env, auth, store, token, salt1, r2.auth, r2.store, token, salt2);
  }

  /** A login between two callbacks leaves the salt cache alone. */
  lemma LoginKeepsSaltCache(env: Env, auth: AuthState, store: Storage, provider: Provider,
                            kp: KeyPair, reply: EpochReply, randomness: string, sub: JsValue)
    requires SeparateKeys(env.cfg)
    ensures var r := Login(env, auth, store, provider, kp, reply, randomness);
      (SaltKey(sub) in r.store <==> SaltKey(sub) in store)
      && (SaltKey(sub) in store ==> r.store[SaltKey(sub)] == store[SaltKey(sub)])
  {
    SaltKeyShape(sub);
  }

  /** A failed callback keeps the pending record (it is removed only on
      success), so a second callback reads the same pending login; the
      session slot is untouched too. */
  lemma FailedCallbackKeepsPending(env: Env, auth: AuthState, store: Storage, token: string, freshSalt: string)
    requires HandleJwt(env, auth, store, token, freshSalt).outcome.Threw?
    ensures var r := HandleJwt(env, auth, store, token, freshSalt);
      && ReadPending(env.lib, r.store) == ReadPending(env.lib, store)
      && (SessionKey in r.store <==> SessionKey in store)
      && (SessionKey in store ==> r.store[SessionKey] == store[SessionKey])
  {
    var r := HandleJwt(env, auth, store, token, freshSalt);
    if env.lib.jwtDecode(token).Some? {
      SaltKeyShape(env.lib.jwtDecode(token).value.sub);
      assert Present(r.store, PreloginKey) == Present(store, PreloginKey);
    }
  }

  /** A pending record whose maxEpoch is NaN fails the callback only after
      the new salt is stored: the salt cache grows, no session appears and
      the in-memory state stays as it was. */
  lemma SaltOutlivesInvalidMaxEpoch(env: Env, auth: AuthState, store: Storage, token: string, freshSalt: string)
    requires ReadPending(env.lib, store).Done? && ToNumber(ReadPending(env.lib, store).value.maxEpoch).None?
    requires env.lib.jwtDecode(token).Some? && !Present(store, SaltKey(env.lib.jwtDecode(token).value.sub))
    requires env.lib.jwtToAddress(token, freshSalt).Some?
    ensures var r := HandleJwt(env, auth, store, token, freshSalt);
      var key := SaltKey(env.lib.jwtDecode(token).value.sub);
      && r.outcome == Threw(InvalidMaxEpoch)
      && key in r.store && r.store[key] == freshSalt
      && (SessionKey in r.store <==> SessionKey in store)
      && r.auth == auth
  {
    SaltKeyShape(env.lib.jwtDecode(token).value.sub);
  }

  /** With a salt cached or not, a NaN pending `maxEpoch` throws before the
      in-memory state is touched. */
  lemma InvalidMaxEpochKeepsState(env: Env, auth: AuthState, store: Storage, token: string, freshSalt: string)
    requires ReadPending(env.lib, store).Done? && ToNumber(ReadPending(env.lib, store).value.maxEpoch).None?
    ensures var r := HandleJwt(env, auth, store, token, freshSalt);
      && r.outcome.Threw? && r.auth == auth
      && (SessionKey in r.store <==> SessionKey in store)
  {
    if env.lib.jwtDecode(token).Some? {
      SaltKeyShape(env.lib.jwtDecode(token).value.sub);
    }
  }

  /** Concrete pending records the callback refuses: `maxEpoch` missing or
      `null` (before the token is even decoded) and `"abc"` (after the salt). */
  lemma PendingEpochExamples(lib: Library, store: Storage)
    requires Present(store, PreloginKey)
    ensures lib.parse(store[PreloginKey]) == Some(Object(map["nonce" := Str("n")])) ==>
      ReadPending(lib, store) == Threw(MissingMaxEpoch)
    ensures lib.parse(store[PreloginKey]) == Some(Object(map["maxEpoch" := Null])) ==>
      ReadPending(lib, store) == Threw(MissingMaxEpoch)
    ensures lib.parse(store[PreloginKey]) == Some(Scalar(Null)) ==>
      ReadPending(lib, store) == Threw(MalformedPendingLogin)
    ensures ToNumber(Str("abc")) == None && ToNumber(Str("")) == Some(0)
  {
    NumberTextExamples();
  }

  /** `Number("abc")` is NaN; `Number("")` is 0. */
  lemma NumberTextExamples()
    ensures ToNumber(Str("abc")) == None
    ensures ToNumber(Str("")) == Some(0)
  {
    assert "abc"[0] == 'a' && "abc"[2] == 'c';
    Numbers.ParseStray("abc");
  }

  // ---------------------------------------------------------------------
  // logout

  /** Logout keeps what belongs to the login attempt and the subject: the
      pending record, the salt cache and (unless it is the demo slot) the
      key-pair slot; the in-memory key pair stays too. */
  lemma LogoutKeepsLoginMaterial(cfg: Config, auth: AuthState, store: Storage, sub: JsValue)
    requires cfg.keyPairKey != DemoKeyPairKey && cfg.keyPairKey != SessionKey
    ensures var r := Logout(auth, store);
      && (forall k :: k in {PreloginKey, SaltKey(sub), cfg.keyPairKey} ==>
            (k in r.store <==> k in store) && (k in store ==> r.store[k] == store[k]))
      && r.auth.ephemeralKeyPair == auth.ephemeralKeyPair
  {
    SaltKeyShape(sub);
  }

  /** If the configured key-pair slot is the demo slot, logout drops the
      stored key pair after all. */
  lemma LogoutDropsDemoKeyPairSlot(cfg: Config, auth: AuthState, store: Storage)
    requires cfg.keyPairKey == DemoKeyPairKey
    ensures cfg.keyPairKey !in Logout(auth, store).store
  {
  }

  /** Logging out twice is logging out once. */
  lemma LogoutIdempotent(auth: AuthState, store: Storage)
    ensures var r := Logout(auth, store);
      Logout(r.auth, r.store) == r
  {
  }

  /** After logout nothing can be proved or sent: `sendTransaction` returns
      silently and `getZkProof` throws, neither calling out. */
  lemma NothingSentAfterLogout(env: Env, auth: AuthState, store: Storage, recipient: string, amount: real,
                               prover: ProverReply, signed: Option<SignedTx>, ledger: Option<ExecResult>)
    ensures var a := Logout(auth, store).auth;
      && SendTransaction(env, a, recipient, amount, prover, signed, ledger) == Run([], Done(None))
      && GetZkProof(env, a, prover) == Run([], Threw(MissingAuthData))
  {
  }

  /** A reload after logout stays signed out: there is no session to restore. */
  lemma ReloadAfterLogout(env: Env, auth: AuthState, store: Storage, locationHash: string)
    ensures var r := Logout(auth, store);
      RestoreSession(env, Initial, r.store, locationHash).auth == Initial
  {
  }

  // ---------------------------------------------------------------------
  // Session-restore effect: the fragment token

  /** A query whose first pair is `name=value` yields `value` for `name`. */
  lemma LookupHead(pair: string, rest: seq<string>, name: string, value: string)
    requires pair != "" && Urls.Cut(pair, '=') == (name, value)
    ensures Urls.Lookup([pair] + rest, name) == Some(value)
  {
    assert ([pair] + rest)[0] == pair;
  }

  /** The pair `id_token=<t>` of a token without '&'. */
  lemma TokenPair(token: string)
    requires '&' !in token
    ensures var pair := "id_token=" + token;
      '&' !in pair && pair[0] == 'i' && Urls.Cut(pair, '=') == ("id_token", token)
  {
    var pair := "id_token=" + token;
    forall k | 0 <= k < |pair| ensures pair[k] != '&' {
      if k >= 9 { assert pair[k] == token[k - 9]; }
    }
    Urls.PairCut("id_token", token);
    assert "id_token" + "=" + token == pair;
  }

  /** The token in a callback fragment `#id_token=<t>&...` is found. */
  lemma FragmentTokenFound(token: string, more: string)
    requires '&' !in token
    ensures FragmentToken("#id_token=" + token) == Some(token)
    ensures FragmentToken("#id_token=" + token + "&" + more) == Some(token)
  {
    FragmentTokenAlone(token);
    FragmentTokenFirst(token, more);
  }

  /** A provider rendered as signed out hands a callback fragment's token
      to `handleJwt`, whether or not a stored session was restored in the
      same run: the guard reads the state the effect was rendered with. */
  lemma FragmentHandsOffToken(env: Env, auth: AuthState, store: Storage, token: string)
    requires token != "" && '&' !in token
    requires !auth.isAuthenticated
    requires RestoreSession(env, auth, store, "#id_token=" + token).outcome.Done?
    ensures RestoreSession(env, auth, store, "#id_token=" + token).calls == [HandleToken(token)]
  {
    FragmentTokenAlone(token);
  }

  lemma FragmentTokenAlone(token: string)
    requires '&' !in token
    ensures FragmentToken("#id_token=" + token) == Some(token)
  {
    var pair := "id_token=" + token;
    TokenPair(token);
    var alone := "#id_token=" + token;
    assert alone[1..] == pair;
    Urls.SplitNoSeparator(pair, '&');
    LookupHead(pair, [], "id_token", token);
    assert [pair] + [] == [pair];
  }

  lemma FragmentTokenFirst(token: string, more: string)
    requires '&' !in token
    ensures FragmentToken("#id_token=" + token + "&" + more) == Some(token)
  {
    var pair := "id_token=" + token;
    TokenPair(token);
    var first := "#id_token=" + token + "&" + more;
    assert first[1..] == pair + ['&'] + more;
    Urls.SplitAtSeparator(pair, more, '&');
    LookupHead(pair, Urls.Split(more, '&'), "id_token", token);
  }

  // ---------------------------------------------------------------------
  // getZkProof and sendTransaction

  /** After a successful callback the proof request carries that token,
      that salt, the pending randomness, `keyClaimName` "sub", and a
      `maxEpoch` text that reads back as the session's epoch. */
  lemma CallbackProofRequest(env: Env, auth: AuthState, store: Storage, token: string, freshSalt: string)
    requires HandleJwt(env, auth, store, token, freshSalt).outcome.Done?
    requires HandleJwt(env, auth, store, token, freshSalt).auth.ephemeralKeyPair.Some?
    ensures var r := HandleJwt(env, auth, store, token, freshSalt);
      var req := ProofRequest(env.lib, r.auth);
      req.Some? ==>
        && req.value.jwt == Str(token)
        && req.value.salt == Str(ResolveSalt(store, env.lib.jwtDecode(token).value.sub, freshSalt).0)
        && req.value.jwtRandomness == ReadPending(env.lib, store).value.randomness
        && req.value.keyClaimName == "sub"
        && ToNumber(Str(req.value.maxEpoch)) == ToNumber(ReadPending(env.lib, store).value.maxEpoch)
    ensures var r := HandleJwt(env, auth, store, token, freshSalt);
      var req := ProofRequest(env.lib, r.auth);
      var key := env.cfg.keyPairKey;
      Present(store, key) && key != SaltKey(env.lib.jwtDecode(token).value.sub) ==>
        && env.lib.importSecret(store[key]).Some?
        && var extended := env.lib.extendedPublicKey(env.lib.publicKey(env.lib.importSecret(store[key]).value));
        && (req.Some? <==> extended.Some?)
        && (req.Some? ==> req.value.extendedEphemeralPublicKey == extended.value)
  {
    var r := HandleJwt(env, auth, store, token, freshSalt);
    var pending := ReadPending(env.lib, store).value;
    var salt := ResolveSalt(store, env.lib.jwtDecode(token).value.sub, freshSalt).0;
    RequestCarriesState(env.lib, r.auth, Str(token), Str(salt), pending.randomness, ToNumber(pending.maxEpoch));
    if Present(store, env.cfg.keyPairKey) && env.cfg.keyPairKey != SaltKey(env.lib.jwtDecode(token).value.sub) {
      CallbackExtendedKey(env, auth, store, token, freshSalt);
    }
  }

  /** A proof request copies the state's jwt, salt and randomness and
      writes an epoch text that reads back as the state's epoch. */
  lemma RequestCarriesState(lib: Library, a: AuthState, jwt: JsValue, salt: JsValue, randomness: JsValue, epoch: Option<int>)
    requires a.ephemeralKeyPair.Some? && a.maxEpoch.Some?
    requires a.jwt == jwt && a.salt == salt && a.randomness == randomness && a.maxEpoch == epoch
    ensures var req := ProofRequest(lib, a);
      req.Some? ==>
        && req.value.jwt == jwt && req.value.salt == salt && req.value.jwtRandomness == randomness
        && req.value.keyClaimName == "sub" && ToNumber(Str(req.value.maxEpoch)) == epoch
  {
  }

  /** The key half of `CallbackProofRequest`: a stored secret (outside the
      salt slot) fixes the key pair, hence the extended key, of the request. */
  lemma CallbackExtendedKey(env: Env, auth: AuthState, store: Storage, token: string, freshSalt: string)
    requires HandleJwt(env, auth, store, token, freshSalt).outcome.Done?
    requires Present(store, env.cfg.keyPairKey)
    requires env.cfg.keyPairKey != SaltKey(env.lib.jwtDecode(token).value.sub)
    ensures HandleJwt(env, auth, store, token, freshSalt).auth.ephemeralKeyPair
      == env.lib.importSecret(store[env.cfg.keyPairKey])
  {
    var key := env.cfg.keyPairKey;
    var store1 := ResolveSalt(store, env.lib.jwtDecode(token).value.sub, freshSalt).1;
    assert store1[key] == store[key];
  }

  /** A prover that fails or answers non-ok stops `sendTransaction` after
      the single proof request: nothing is signed or submitted. */
  lemma ProverFailureBlocksLedger(env: Env, auth: AuthState, recipient: string, amount: real,
                                  prover: ProverReply, signed: Option<SignedTx>, ledger: Option<ExecResult>)
    requires ProofMaterial(auth) && ExtendedKey(env.lib, auth).Some?
    requires !(prover.Response? && prover.ok)
    ensures SendTransaction(env, auth, recipient, amount, prover, signed, ledger)
      == Run([PostProof(ProofRequest(env.lib, auth).value)], Threw(ProofServiceFailure))
  {
  }

  /** Once the proof is in and every later step succeeds, the transfer is
      signed with the ephemeral key and submitted once with the composed
      zkLogin signature, and the ledger's answer comes back unchanged. */
  lemma SubmitSucceeds(env: Env, auth: AuthState, recipient: string, coins: int,
                       proof: ZkProof, tx: SignedTx, result: ExecResult)
    requires SignerMaterial(auth) && auth.jwt.Str? && env.lib.jwtDecode(auth.jwt.s).Some?
    requires ToBigInt(auth.salt).Some?
    requires var claims := env.lib.jwtDecode(auth.jwt.s).value;
      && env.lib.genAddressSeed(ToBigInt(auth.salt).value, "sub", claims.sub, claims.aud).Some?
      && var seed := env.lib.genAddressSeed(ToBigInt(auth.salt).value, "sub", claims.sub, claims.aud).value;
      env.lib.zkLoginSignature(proof, seed, auth.maxEpoch.value, tx.signature).Some?
    ensures var r := Submit(env, auth, recipient, coins as real, proof, Some(tx), Some(result));
      var claims := env.lib.jwtDecode(auth.jwt.s).value;
      var seed := env.lib.genAddressSeed(ToBigInt(auth.salt).value, "sub", claims.sub, claims.aud).value;
      && r.outcome == Done(Some(result))
      && r.calls == [
           SignTransaction(Transfer(auth.userAddress, recipient, MistPerSui * coins), auth.ephemeralKeyPair.value),
           Execute(tx.bytes, env.lib.zkLoginSignature(proof, seed, auth.maxEpoch.value, tx.signature).value)]
  {
  }

  /** With every step succeeding, `sendTransaction` posts one proof request
      and then submits exactly as `Submit` does with the prover's proof,
      returning the ledger's answer unchanged. */
  lemma SendSucceeds(env: Env, auth: AuthState, recipient: string, amount: real,
                     proof: ZkProof, tx: SignedTx, result: ExecResult)
    requires ProofMaterial(auth) && ExtendedKey(env.lib, auth).Some?
    ensures var r := SendTransaction(env, auth, recipient, amount, Response(true, proof), Some(tx), Some(result));
      r.calls == [PostProof(ProofRequest(env.lib, auth).value)] + Submit(env, auth, recipient, amount, proof, Some(tx), Some(result)).calls
      && r.outcome == Submit(env, auth, recipient, amount, proof, Some(tx), Some(result)).outcome
  {
  }

  /** Half a coin: `BigInt(0.5)` throws after the proof was fetched and
      before anything is signed, so the one call made is the proof request. */
  lemma FractionalAmountThrows(env: Env, auth: AuthState, recipient: string, proof: ZkProof,
                               signed: Option<SignedTx>, ledger: Option<ExecResult>)
    requires ProofMaterial(auth) && ExtendedKey(env.lib, auth).Some?
    ensures SendTransaction(env, auth, recipient, 0.5, Response(true, proof), signed, ledger)
      == Run([PostProof(ProofRequest(env.lib, auth).value)], Threw(InvalidAmount))
  {
    assert NumberToBigInt(0.5).None?;
  }

  /** A `maxEpoch` of 0 counts as missing: `sendTransaction` returns
      silently and `getZkProof` throws, whatever else is in place. */
  lemma ZeroEpochCountsAsMissing(env: Env, auth: AuthState, recipient: string, amount: real,
                                 prover: ProverReply, signed: Option<SignedTx>, ledger: Option<ExecResult>)
    requires auth.maxEpoch == Some(0)
    ensures SendTransaction(env, auth, recipient, amount, prover, signed, ledger) == Run([], Done(None))
    ensures GetZkProof(env, auth, prover) == Run([], Threw(MissingAuthData))
  {
  }

  /** Login's truthiness test and `Number()` let the epoch text "0"
      through as epoch 0, which the signing guards then treat as missing;
      the number 0 and the empty text are refused. */
  lemma ZeroEpochReplies()
    ensures AcceptedEpoch(Answered(Str("0"))) == Some(0)
    ensures AcceptedEpoch(Answered(Num(0))) == None
    ensures AcceptedEpoch(Answered(Str(""))) == None
  {
    assert Numbers.TrimStart("0") == "0";
    assert Numbers.TrimEnd("0") == "0";
    assert Numbers.DigitsValue("0") == 0 by { assert "0"[..0] == ""; }
  }

  /** Randomness guards only the proof: with it missing, `sendTransaction`
      passes its own guard and then throws from `getZkProof` before any call. */
  lemma MissingRandomnessThrows(env: Env, auth: AuthState, recipient: string, amount: real,
                                prover: ProverReply, signed: Option<SignedTx>, ledger: Option<ExecResult>)
    requires SignerMaterial(auth) && !Truthy(auth.randomness)
    ensures SendTransaction(env, auth, recipient, amount, prover, signed, ledger) == Run([], Threw(MissingAuthData))
  {
  }
}

=== FILE: foreign.dfy ===
/** The code the login flow calls but does not own, as uninterpreted
    functions: Ed25519 key handling, the zkLogin helpers, `jwtDecode`, and
    `JSON.stringify`/`JSON.parse`. A call the flow can see fail returns
    None when it throws (or when the `await import(...)` that loads it
    fails); `exportSecret`, `publicKey`, `generateNonce`, `keyPairJson` and
    `stringify` are taken never to throw. The deployment constants the flow reads are collected in `Config`. */
module Foreign {
  import opened Wrappers
  import opened Js

  /** An Ed25519 key pair, known by its secret key bytes. */
  datatype KeyPair = KeyPair(secretKey: seq<bv8>)

  /** The claims of a decoded identity token that the flow reads. */
  datatype Claims = Claims(sub: JsValue, aud: JsValue)

  /** The prover's answer, kept opaque: it is spread unchanged into the signature inputs. */
  datatype ZkProof = ZkProof(json: string)

  datatype Library = Library(
    /** `keyPair.export().privateKey` */
    exportSecret: KeyPair -> string,
    /** `Ed25519Keypair.fromSecretKey(fromB64(text))` */
    importSecret: string -> Option<KeyPair>,
    /** `keyPair.getPublicKey()` */
    publicKey: KeyPair -> string,
    /** `generateNonce(publicKey, maxEpoch, randomness)` */
    generateNonce: (string, int, string) -> string,
    /** `jwtDecode(token)` */
    jwtDecode: string -> Option<Claims>,
    /** `jwtToAddress(token, salt)` */
    jwtToAddress: (string, string) -> Option<string>,
    /** `getExtendedEphemeralPublicKey(publicKey).toString()` */
    extendedPublicKey: string -> Option<string>,
    /** `genAddressSeed(salt, claimName, sub, aud).toString()` */
    genAddressSeed: (int, string, JsValue, JsValue) -> Option<string>,
    /** `getZkLoginSignature({inputs: {...proof, addressSeed}, maxEpoch, userSignature})` */
    zkLoginSignature: (ZkProof, string, int, string) -> Option<string>,
    /** the JSON form of a key-pair instance inside `JSON.stringify` */
    keyPairJson: KeyPair -> string,
    /** `JSON.stringify` of a flat object */
    stringify: map<string, JsValue> -> string,
    /** `JSON.parse`; None when it throws */
    parse: string -> Option<Parsed>
  )

  /** `KEY_PAIR_SESSION_STORAGE_KEY`, `NEXT_PUBLIC_GOOGLE_CLIENT_ID` and
      `window.location.origin`. */
  datatype Config = Config(keyPairKey: string, googleClientId: string, origin: string)

  datatype Env = Env(lib: Library, cfg: Config)

  /** `JSON.parse` reads back what `JSON.stringify` wrote, less the
      `undefined` fields that stringify drops; and an object's JSON text is
      never empty (it is at least `{}`). */
  ghost predicate JsonRoundTrips(lib: Library) {
    forall fields :: lib.stringify(fields) != "" && lib.parse(lib.stringify(fields)) == Some(Object(Defined(fields)))
  }

  /** A key pair's exported secret imports back as the same key pair. */
  ghost predicate KeyExportRoundTrips(lib: Library) {
    forall kp :: lib.importSecret(lib.exportSecret(kp)) == Some(kp)
  }

  /** Exported secrets are never empty, so the flow finds them when it looks. */
  ghost predicate ExportIsNonEmpty(lib: Library) {
    forall kp :: lib.exportSecret(kp) != ""
  }
}

=== FILE: js.dfy ===
/** The JavaScript values the login flow handles after `JSON.parse` and
    object destructuring, and the coercions it applies to them: truthiness
    tests, `Number()`, `BigInt()` and template-literal interpolation. */
module Js {
  import opened Wrappers
  import Numbers

  /** A JavaScript value. Numbers are integral (NaN never reaches a field of
      the model: an `isNaN` guard stops it, or `JSON.stringify` turns it into `null`);
      objects and arrays below the top level are kept as their JSON text. */
  datatype JsValue =
    | Undefined
    | Null
    | Bool(b: bool)
    | Num(n: int)
    | Str(s: string)
    | Composite(json: string)

  /** What `JSON.parse` yields: an object with named fields, or any other value. */
  datatype Parsed = Object(fields: map<string, JsValue>) | Scalar(value: JsValue)

  /** JavaScript truthiness: `undefined`, `null`, `false`, `0` and `""` are falsy. */
  predicate Truthy(v: JsValue) {
    match v
    case Undefined => false
    case Null => false
    case Bool(b) => b
    case Num(n) => n != 0
    case Str(s) => s != ""
    case Composite(_) => true
  }

  /** `Number(v)`; None is NaN. Objects and arrays are taken to be NaN. */
  function ToNumber(v: JsValue): (r: Option<int>)
    ensures v == Undefined || v.Composite? ==> r.None?
    ensures !Truthy(v) && v != Undefined ==> r == Some(0)
    ensures v.Num? ==> r == Some(v.n)
  {
    match v
    case Undefined => None
    case Null => Some(0)
    case Bool(b) => Some(if b then 1 else 0)
    case Num(n) => Some(n)
    case Str(s) => Numbers.ParseInteger(s)
    case Composite(_) => None
  }

  /** `BigInt(v)`; None is the TypeError or SyntaxError it throws. Unlike
      `Number`, it refuses `null` and `undefined`. */
  function ToBigInt(v: JsValue): (r: Option<int>)
    ensures v != Null ==> r == ToNumber(v)
    ensures v == Null ==> r.None?
  {
    match v
    case Undefined => None
    case Null => None
    case Bool(b) => Some(if b then 1 else 0)
    case Num(n) => Some(n)
    case Str(s) => Numbers.ParseInteger(s)
    case Composite(_) => None
  }

  /** `BigInt(x)` of a JavaScript number: the integer it denotes, or None
      for the RangeError a number with a fractional part throws. */
  function NumberToBigInt(x: real): (r: Option<int>)
    ensures r.Some? <==> x.Floor as real == x
    ensures r.Some? ==> r.value as real == x
  {
    if x.Floor as real == x then Some(x.Floor) else None
  }

  /** The text `${v}` inserts into a template literal. */
  function TemplateText(v: JsValue): string {
    match v
    case Undefined => "undefined"
    case Null => "null"
    case Bool(b) => if b then "true" else "false"
    case Num(n) => Numbers.IntText(n)
    case Str(s) => s
    case Composite(_) => "[object Object]"
  }

  /** Reading `key` while destructuring a parsed value: a missing field is
      `undefined`, and destructuring `null` throws (None). */
  function Property(p: Parsed, key: string): (r: Option<JsValue>)
    ensures r.None? <==> p == Scalar(Null) || p == Scalar(Undefined)
    ensures p.Object? && key in p.fields ==> r == Some(p.fields[key])
    ensures r.Some? && !(p.Object? && key in p.fields) ==> r.value == Undefined
  {
    match p
    case Object(fields) => Some(if key in fields then fields[key] else Undefined)
    case Scalar(v) => if v == Null || v == Undefined then None else Some(Undefined)
  }

  /** The fields `JSON.stringify` keeps: those whose value is not `undefined`. */
  function Defined(fields: map<string, JsValue>): (kept: map<string, JsValue>)
    ensures forall k :: k in kept <==> k in fields && fields[k] != Undefined
    ensures forall k :: k in kept ==> kept[k] == fields[k]
  {
    map k | k in fields && fields[k] != Undefined :: fields[k]
  }

  /** Serialising an object and parsing it back gives every field its old
      value, `undefined` ones included. */
  lemma DefinedPreservesProperties(fields: map<string, JsValue>, key: string)
    ensures Property(Object(Defined(fields)), key) == Property(Object(fields), key)
  {
  }

  /** A number written as text reads back as the same number. */
  lemma NumberOfIntText(n: int)
    ensures ToNumber(Str(Numbers.IntText(n))) == Some(n)
    ensures ToBigInt(Str(Numbers.IntText(n))) == Some(n)
  {
    Numbers.IntTextRoundTrip(n);
  }
}

=== FILE: numbers.dfy ===
/** Decimal integer text as JavaScript reads and writes it: `Number(s)` and
    `BigInt(s)` on a string, and `n.toString()` on an integral number. */
module Numbers {
  import opened Wrappers

  predicate IsDigit(c: char) {
    '0' <= c <= '9'
  }

  /** The ASCII white-space characters that `Number()` and `BigInt()` trim. */
  predicate IsWhite(c: char) {
    c == ' ' || c == '\t' || c == '\n' || c == '\r' || c == '\U{000B}' || c == '\U{000C}'
  }

  predicate AllDigits(s: string) {
    forall i :: 0 <= i < |s| ==> IsDigit(s[i])
  }

  function DigitValue(c: char): nat
    requires IsDigit(c)
  {
    c as int - '0' as int
  }

  function DigitChar(d: nat): (c: char)
    requires d < 10
    ensures IsDigit(c) && DigitValue(c) == d
  {
    ('0' as int + d) as char
  }

  /** The value of a run of decimal digits, most significant digit first. */
  function DigitsValue(s: string): nat
    requires AllDigits(s)
    decreases |s|
  {
    if s == [] then 0 else DigitsValue(s[..|s| - 1]) * 10 + DigitValue(s[|s| - 1])
  }

  /** The shortest decimal text of a natural number. */
  function NatText(n: nat): (s: string)
    ensures |s| > 0 && AllDigits(s)
  {
    if n < 10 then [DigitChar(n)] else NatText(n / 10) + [DigitChar(n % 10)]
  }

  /** The text has no leading zero, and has a single digit exactly below 10. */
  lemma {:induction false} NatTextShape(n: nat)
    ensures NatText(n)[0] == '0' ==> n == 0
    ensures n < 10 <==> |NatText(n)| == 1
  {
    if n >= 10 {
      NatTextShape(n / 10);
      assert NatText(n)[0] == NatText(n / 10)[0];
    }
  }

  /** `n.toString()` for an integral JavaScript number (without the exponent
      form JavaScript switches to at 1e21). */
  function IntText(n: int): (s: string)
    ensures |s| > 0 && (s[0] == '-' || IsDigit(s[0])) && IsDigit(s[|s| - 1])
  {
    if n < 0 then "-" + NatText(-n) else NatText(n)
  }

  /** Drops leading white space. */
  function TrimStart(s: string): (t: string)
    ensures |t| <= |s| && t == s[|s| - |t|..]
    ensures forall i :: 0 <= i < |s| - |t| ==> IsWhite(s[i])
    ensures t == [] || !IsWhite(t[0])
  {
    if s != [] && IsWhite(s[0]) then TrimStart(s[1..]) else s
  }

  /** Drops trailing white space. */
  function TrimEnd(s: string): (t: string)
    ensures |t| <= |s| && t == s[..|t|]
    ensures forall i :: |t| <= i < |s| ==> IsWhite(s[i])
    ensures t == [] || !IsWhite(t[|t| - 1])
  {
    if s != [] && IsWhite(s[|s| - 1]) then TrimEnd(s[..|s| - 1]) else s
  }

  function Trim(s: string): string {
    TrimEnd(TrimStart(s))
  }

  /** The integer a string denotes under `Number(s)` or `BigInt(s)`: white
      space around it is ignored, the empty text is 0, and an optional sign
      may precede the digits. None is NaN (for `BigInt`, a SyntaxError). */
  function ParseInteger(s: string): Option<int> {
    var t := Trim(s);
    if t == [] then Some(0)
    else if t[0] == '-' || t[0] == '+' then
      if |t| > 1 && AllDigits(t[1..]) then
        var magnitude: int := DigitsValue(t[1..]);
        Some(if t[0] == '-' then -magnitude else magnitude)
      else None
    else if AllDigits(t) then Some(DigitsValue(t))
    else None
  }

  lemma {:induction false} NatTextValue(n: nat)
    ensures DigitsValue(NatText(n)) == n
  {
    if n >= 10 {
      var s := NatText(n / 10);
      var t := s + [DigitChar(n % 10)];
      assert NatText(n) == t;
      assert t[..|t| - 1] == s;
      NatTextValue(n / 10);
    }
  }

  /** A text that starts and ends with a non-blank is its own trim. */
  lemma TrimUnpadded(s: string)
    requires s != [] && !IsWhite(s[0]) && !IsWhite(s[|s| - 1])
    ensures Trim(s) == s
  {
    assert TrimStart(s) == s;
  }

  /** A text that starts with neither a sign nor a digit reads as NaN. */
  lemma ParseStray(s: string)
    requires s != [] && !IsWhite(s[0]) && !IsWhite(s[|s| - 1])
    requires !IsDigit(s[0]) && s[0] != '-' && s[0] != '+'
    ensures ParseInteger(s) == None
  {
    TrimUnpadded(s);
    assert !AllDigits(s);
  }

  /** A non-empty run of digits reads as its value. */
  lemma ParseDigits(d: string)
    requires d != [] && AllDigits(d)
    ensures ParseInteger(d) == Some(DigitsValue(d))
  {
    TrimUnpadded(d);
  }

  /** A minus sign before a non-empty run of digits reads as the negated value. */
  lemma ParseNegated(d: string)
    requires d != [] && AllDigits(d)
    ensures ParseInteger("-" + d) == Some(-(DigitsValue(d) as int))
  {
    var t := "-" + d;
    TrimUnpadded(t);
    assert t[1..] == d;
  }

  /** The digits of a natural number read back as that number. */
  lemma NatTextRoundTrip(n: nat)
    ensures ParseInteger(NatText(n)) == Some(n)
  {
    NatTextValue(n);
    ParseDigits(NatText(n));
  }

  /** For negative `n`, a minus sign before the digits of `-n` reads back as `n`. */
  lemma NegatedTextRoundTrip(n: int)
    requires n < 0
    ensures ParseInteger("-" + NatText(-n)) == Some(n)
  {
    var d := NatText(-n);
    NatTextValue(-n);
    assert -(DigitsValue(d) as int) == n;
    ParseNegated(d);
  }

  /** Reading back what `toString()` wrote gives the number again. */
  lemma IntTextRoundTrip(n: int)
    ensures ParseInteger(IntText(n)) == Some(n)
  {
    if n < 0 {
      NegatedTextRoundTrip(n);
    } else {
      NatTextRoundTrip(n);
    }
  }
}

=== FILE: urls.dfy ===
/** The slice of URL handling the login flow relies on: writing a query
    string by joining `name=value` pairs with '&', and reading one parameter
    back the way `URLSearchParams.get` does (percent-decoding left out). */
module Urls {
  import opened Wrappers

  /** Splits `s` at every `sep`; the pieces never contain `sep`. */
  function Split(s: string, sep: char): (parts: seq<string>)
    ensures |parts| >= 1
    ensures forall i :: 0 <= i < |parts| ==> sep !in parts[i]
    decreases |s|
  {
    if s == [] then [""]
    else
      var rest := Split(s[1..], sep);
      if s[0] == sep then [""] + rest else [[s[0]] + rest[0]] + rest[1..]
  }

  /** Glues `parts` together with `sep` between neighbours. */
  function Join(parts: seq<string>, sep: char): string
    requires |parts| >= 1
    decreases |parts|
  {
    if |parts| == 1 then parts[0] else parts[0] + [sep] + Join(parts[1..], sep)
  }

  /** Cuts `s` at the first `c`: what comes before and what comes after.
      Without a `c`, everything is before and nothing after. */
  function Cut(s: string, c: char): (r: (string, string))
    ensures c !in r.0
    ensures forall x :: x in r.1 ==> x in s
    ensures c in s ==> s == r.0 + [c] + r.1
    ensures c !in s ==> r == (s, "")
  {
    if s == [] then ("", "")
    else if s[0] == c then ("", s[1..])
    else
      var (before, after) := Cut(s[1..], c);
      assert [s[0]] + s[1..] == s;
      ([s[0]] + before, after)
  }

  /** The `name=value` pairs of a query, one per name. */
  function Pairs(names: seq<string>, values: seq<string>): (pairs: seq<string>)
    requires |names| == |values|
    ensures |pairs| == |names|
    ensures forall i :: 0 <= i < |pairs| ==> pairs[i] == names[i] + "=" + values[i]
  {
    seq(|names|, i requires 0 <= i < |names| => names[i] + "=" + values[i])
  }

  /** The value of the first pair named `name`; empty pairs are skipped. */
  function Lookup(pairs: seq<string>, name: string): (r: Option<string>)
    ensures r.Some? ==>
      exists i :: && 0 <= i < |pairs| && pairs[i] != "" && Cut(pairs[i], '=') == (name, r.value)
                  && forall j :: 0 <= j < i && pairs[j] != "" ==> Cut(pairs[j], '=').0 != name
    ensures r.None? ==> forall i :: 0 <= i < |pairs| && pairs[i] != "" ==> Cut(pairs[i], '=').0 != name
  {
    if pairs == [] then None
    else if pairs[0] != "" && Cut(pairs[0], '=').0 == name then Some(Cut(pairs[0], '=').1)
    else Lookup(pairs[1..], name)
  }

  /** `new URLSearchParams(query).get(name)`: a leading '?' is dropped. */
  function SearchParam(query: string, name: string): Option<string> {
    var q := if query != [] && query[0] == '?' then query[1..] else query;
    Lookup(Split(q, '&'), name)
  }

  /** A query parameter of a whole URL: the text after the first '?', up to a '#'. */
  function UrlParam(url: string, name: string): Option<string> {
    SearchParam(Cut(Cut(url, '?').1, '#').0, name)
  }

  lemma {:induction false} SplitNoSeparator(a: string, sep: char)
    requires sep !in a
    ensures Split(a, sep) == [a]
    decreases |a|
  {
    if a != [] {
      SplitNoSeparator(a[1..], sep);
      assert [a[0]] + a[1..] == a;
    }
  }

  lemma {:induction false} SplitAtSeparator(a: string, rest: string, sep: char)
    requires sep !in a
    ensures Split(a + [sep] + rest, sep) == [a] + Split(rest, sep)
    decreases |a|
  {
    var s := a + [sep] + rest;
    if a == [] {
      assert s[1..] == rest;
    } else {
      assert s[1..] == a[1..] + [sep] + rest;
      SplitAtSeparator(a[1..], rest, sep);
      assert [a[0]] + a[1..] == a;
    }
  }

  /** Splitting undoes joining, as long as no part contains the separator. */
  lemma {:induction false} SplitJoin(parts: seq<string>, sep: char)
    requires |parts| >= 1
    requires forall i :: 0 <= i < |parts| ==> sep !in parts[i]
    ensures Split(Join(parts, sep), sep) == parts
    decreases |parts|
  {
    if |parts| == 1 {
      SplitNoSeparator(parts[0], sep);
    } else {
      SplitJoin(parts[1..], sep);
      SplitAtSeparator(parts[0], Join(parts[1..], sep), sep);
      assert [parts[0]] + parts[1..] == parts;
    }
  }

  /** Joining undoes splitting: no text is lost at the cuts. */
  lemma {:induction false} JoinSplit(s: string, sep: char)
    ensures Join(Split(s, sep), sep) == s
    decreases |s|
  {
    if s != [] {
      var rest := Split(s[1..], sep);
      JoinSplit(s[1..], sep);
      if s[0] == sep {
        assert Join(Split(s, sep), sep) == "" + [sep] + Join(rest, sep);
      } else {
        var parts := [[s[0]] + rest[0]] + rest[1..];
        if |rest| == 1 {
          assert Join(parts, sep) == [s[0]] + rest[0];
        } else {
          assert Join(rest, sep) == rest[0] + [sep] + Join(rest[1..], sep);
          assert parts[1..] == rest[1..];
          assert Join(parts, sep) == [s[0]] + rest[0] + [sep] + Join(rest[1..], sep);
        }
      }
    }
  }

  /** Cutting at the first `c` is the only split of `s` around a `c` whose
      front has none. */
  lemma {:induction false} CutUnique(s: string, c: char, before: string, after: string)
    requires c !in before && s == before + [c] + after
    ensures Cut(s, c) == (before, after)
    decreases |before|
  {
    if before == [] {
      assert s[1..] == after;
    } else {
      assert s[0] == before[0] != c;
      assert s[1..] == before[1..] + [c] + after;
      CutUnique(s[1..], c, before[1..], after);
      assert [before[0]] + before[1..] == before;
    }
  }

  /** A `name=value` pair is read back as that name and value. */
  lemma PairCut(name: string, value: string)
    requires '=' !in name
    ensures Cut(name + "=" + value, '=') == (name, value)
  {
    CutUnique(name + "=" + value, '=', name, value);
  }

  /** In a query whose names are distinct and free of '=', each name reads
      back its own value. */
  lemma {:induction false} LookupPairs(names: seq<string>, values: seq<string>, i: int)
    requires |names| == |values| && 0 <= i < |names|
    requires forall j :: 0 <= j < |names| ==> '=' !in names[j]
    requires forall j :: 0 <= j < i ==> names[j] != names[i]
    ensures Lookup(Pairs(names, values), names[i]) == Some(values[i])
    decreases i
  {
    var pairs := Pairs(names, values);
    PairCut(names[0], values[0]);
    assert pairs[0] != "" by { assert |pairs[0]| > |names[0]|; }
    if i > 0 {
      assert pairs[1..] == Pairs(names[1..], values[1..]);
      LookupPairs(names[1..], values[1..], i - 1);
    }
  }

  /** Pairs built from texts without `c` (other than '=') contain no `c`. */
  lemma PairsAvoid(names: seq<string>, values: seq<string>, c: char)
    requires |names| == |values| && c != '='
    requires forall j :: 0 <= j < |names| ==> c !in names[j] && c !in values[j]
    ensures forall j :: 0 <= j < |names| ==> c !in Pairs(names, values)[j]
  {
    forall j | 0 <= j < |names| ensures c !in Pairs(names, values)[j] {
      var p := names[j] + "=" + values[j];
      assert p == Pairs(names, values)[j];
      forall k | 0 <= k < |p| ensures p[k] != c {
        if k < |names[j]| {
          assert p[k] == names[j][k];
        } else if k > |names[j]| {
          assert p[k] == values[j][k - |names[j]| - 1];
        }
      }
    }
  }
}

=== FILE: wrappers.dfy ===
/** Option, used wherever the modelled code can produce "nothing": a missing
    storage entry, a NaN from Number(), a foreign call that throws. */
module Wrappers {

  datatype Option<+T> = None | Some(value: T)
}
